=== FILE: README.md ===
# Fractional indexing: a verified Dafny model

This project models the order-key generator of `fractional-indexing-php`
(`src/FractionalIndexing.php`). An order key is a string whose byte-wise
order is the order of the items it labels. The generator produces a key
strictly between two existing keys, so that an item can be moved or
inserted without renumbering the others.

A key has two parts:

- **Integer part.** A head letter whose value fixes how many digits follow
  (`a`..`z` carry 1..26 digits, `Z`..`A` carry 1..26 digits).
- **Fractional part.** A digit string that never ends in the alphabet's
  zero digit.

The key `'A'` followed by 26 zero digits is reserved, so that every valid
key has a smaller valid key.

The model is written over an arbitrary alphabet: strictly ascending, with
at least two digits, as the source's doc comment asks. The default base-62
alphabet and the base-10 and base-95 alphabets of the test file appear as
constants.

The source works on bytes: `$s[$i]`, `strpos` and `strlen` count bytes.
In the model one `char` stands for one byte, so alphabets and keys are
taken to consist of single-byte characters.

Modules, one per file:

| file | module | what it holds |
|---|---|---|
| wrappers.dfy | Wrappers | `Option` (PHP `null`), `Result`, `Outcome`, and the error kinds that stand for the source's exceptions |
| lex.dfy | Lex | byte-wise string order `LexLess` with its order laws; PHP `substr`, `$s[$n]` and string truthiness |
| alphabet.dfy | Alphabet | alphabets, `strpos` as `IndexOf`, and the numeric value of a digit string |
| integer_codec.dfy | IntegerCodec | `getIntegerLength`, `getIntegerPart`, `validateInteger`, `incrementInteger`, `decrementInteger`, plus an independent rank of every integer part |
| validation.dfy | Validation | `validateOrderKey` and the key grammar |
| fraction.dfy | Fraction | `midpoint`, both as written (PHP truthiness) and as intended |
| key_generator.dfy | KeyGenerator | `generateKeyBetween`, as written and as intended |
| key_batches.dfy | KeyBatches | `generateNKeysBetween` |
| vectors.dfy | Vectors | concrete cases from the source's comments and tests |

The reference for integer parts is `IntegerCodec.Rank`. It numbers all
integer parts 0, 1, 2, … in sort order: the reserved integer is 0 and
`'z'` followed by 26 maximal digits is the last. Against this numbering:

- increment is +1 and decrement is −1;
- byte order on integer parts is numeric order on their ranks.

## Model

| member | source | states |
|---|---|---|
| Lex.LexLessTransitive | src/FractionalIndexing.php:30 | the byte order the source compares keys with is transitive |
| Lex.LexLessTotal | src/FractionalIndexing.php:30 | any two distinct strings are ordered one way or the other |
| Lex.LexLessAsymmetric | src/FractionalIndexing.php:30 | no two strings are each below the other, so `$a >= $b` is the negation of `$a < $b` |
| Lex.LexLessCommonPrefix | src/FractionalIndexing.php:163-172 | removing a common prefix from both sides does not change their order |
| Lex.LexLessNotPrefix | src/FractionalIndexing.php:83-87 | if `x < y` and `x` is not a prefix of `y`, anything after `x` stays below anything after `y` |
| Alphabet.Base62DigitsValid | src/FractionalIndexing.php:7 | the default alphabet has 62 digits in strictly ascending order, starting with `0` |
| Alphabet.IndexOf | src/FractionalIndexing.php:266 | `strpos` finds the first position holding the character, and a digit is found |
| Alphabet.ValueOrder | src/FractionalIndexing.php:263-273 | on equal-length digit strings, byte order is numeric order, and equal strings have equal values |
| IntegerCodec.IntegerLength | src/FractionalIndexing.php:214-224 | succeeds exactly for heads `a`..`z` and `A`..`Z`; the length is `h-'a'+2` for lower case and `'Z'-h+2` for upper case, between 2 and 27; any other head gives the invalid-head error |
| IntegerCodec.IntegerPart | src/FractionalIndexing.php:229-237 | succeeds exactly when the key has a valid head and at least that many characters; the result is a valid integer part and a prefix of the key; otherwise the error is a truncated key, or an invalid head |
| IntegerCodec.ValidateInteger | src/FractionalIndexing.php:204-209 | passes exactly when the length matches the head; otherwise the error is a malformed integer, or an invalid head |
| IntegerCodec.IncrementDigits | src/FractionalIndexing.php:263-273 | the carry loop keeps the length; it carries out exactly when every digit is maximal, leaving all zeros; otherwise the digits' value goes up by one |
| IntegerCodec.DecrementDigits | src/FractionalIndexing.php:306-316 | the borrow loop keeps the length; it borrows out exactly when every digit is zero, leaving all maximal digits; otherwise the digits' value goes down by one |
| IntegerCodec.IncrementHead | src/FractionalIndexing.php:275-290 | after a carry out of every digit, there is no next integer exactly when the head is `z`; otherwise the new head with its digits is a valid integer part over the alphabet |
| IntegerCodec.DecrementHead | src/FractionalIndexing.php:318-333 | after a borrow out of every digit, there is no previous integer exactly when the head is `A`; otherwise the new head with its digits is a valid integer part over the alphabet |
| IntegerCodec.IncrementInteger | src/FractionalIndexing.php:258-293 | fails exactly on invalid integer parts, with validateInteger's error; has no result exactly at `'z'` followed by 26 maximal digits; any result is a valid integer part over the alphabet |
| IntegerCodec.DecrementInteger | src/FractionalIndexing.php:300-336 | fails exactly on invalid integer parts; has no result exactly at the reserved integer; any result is a valid integer part over the alphabet |
| IntegerCodec.RankOrder | src/FractionalIndexing.php:214-224 | the head-length encoding makes byte order on integer parts agree with rank order, and distinct parts have distinct ranks |
| IntegerCodec.IncrementRank | src/FractionalIndexing.php:258-293 | increment adds exactly one to the rank, and has no result exactly at the last rank |
| IntegerCodec.DecrementRank | src/FractionalIndexing.php:300-336 | decrement subtracts exactly one from the rank, and has no result exactly at rank 0 |
| IntegerCodec.IncrementIsSuccessor | src/FractionalIndexing.php:258-293 | the result is above the input and no valid integer part lies strictly between them; with no result, no integer part is above the input |
| IntegerCodec.DecrementIsPredecessor | src/FractionalIndexing.php:300-336 | the result is below the input and no valid integer part lies strictly between them; with no result, no integer part is below the input |
| IntegerCodec.IncrementThenDecrement | src/FractionalIndexing.php:258-336 | decrementing an increment gives back the original integer part |
| IntegerCodec.DecrementThenIncrement | src/FractionalIndexing.php:258-336 | incrementing a decrement gives back the original integer part |
| IntegerCodec.BandCrossing | src/FractionalIndexing.php:275-278 | `Z` with the maximal digit increments to `a` with the zero digit, and that decrements back to it |
| IntegerCodec.SentinelRank | src/FractionalIndexing.php:318-324 | the reserved integer is the smallest integer part: rank 0 |
| IntegerCodec.IntegerPrefixFree | src/FractionalIndexing.php:229-237 | no valid integer part is a proper prefix of another |
| IntegerCodec.IntegerOrderExtends | src/FractionalIndexing.php:83-87 | keys with smaller integer parts sort first, whatever their fractions |
| Validation.ValidateOrderKey | src/FractionalIndexing.php:239-251 | passes exactly on well-formed keys; on failure, the reserved integer alone gives the reserved-key error, then a bad head or a truncated key, then a fraction ending in zero, in the source's order |
| Validation.KeyGrammar | src/FractionalIndexing.php:239-251 | a key is well formed exactly when it splits into a valid integer part and a fraction that does not end in zero, and is not the reserved integer with an empty fraction |
| Validation.SentinelWithFraction | src/FractionalIndexing.php:241-250 | the reserved integer followed by a fraction is valid exactly when the fraction is non-empty and does not end in zero |
| Validation.IntPartOrder | src/FractionalIndexing.php:69-77 | of two ordered valid keys, the integer part of the lower is equal to or below that of the upper |
| Fraction.PrefixScan | src/FractionalIndexing.php:167-170 | the loop stops at the first position where `b` differs from `a`, or from the zero digit when `a` is treated as empty; every earlier position agrees |
| Fraction.MidpointStrip | src/FractionalIndexing.php:163-173 | keeping the common prefix and bisecting the rest yields only alphabet digits; its ordering is Fraction.StripCase |
| Fraction.MidpointFirst | src/FractionalIndexing.php:176-201 | each of the three first-digit cases yields only alphabet digits; their ordering is Fraction.GapCase, Fraction.PrefixDigitCase and Fraction.ExtendCase |
| Fraction.Midpoint | src/FractionalIndexing.php:151-202 | as intended, on unordered bounds it fails with the order error; on a trailing zero it fails with the trailing-zero error; otherwise it returns a non-empty digit string strictly between the bounds that does not end in zero |
| Fraction.MidpointBetween | src/FractionalIndexing.php:151-202 | as intended, under the callers' guarantees, the midpoint is defined, strictly between its bounds, and does not end in zero |
| Fraction.StripCase | src/FractionalIndexing.php:163-172 | keeping the common prefix and bisecting the rest stays strictly between the bounds |
| Fraction.GapCase | src/FractionalIndexing.php:186-190 | when the first digits are two or more apart, the rounded average digit lies strictly between them |
| Fraction.PrefixDigitCase | src/FractionalIndexing.php:192-194 | with consecutive first digits and a longer upper bound, the upper bound's first digit is strictly between |
| Fraction.ExtendCase | src/FractionalIndexing.php:195-201 | otherwise, `a`'s first digit followed by the midpoint of the rest of `a` and nothing is strictly between |
| Fraction.StripFacts | src/FractionalIndexing.php:164-172 | as the source's comment says, `b` cannot end inside the common prefix; what remains of the bounds again meets midpoint's requirements |
| Fraction.SameStripLength | src/FractionalIndexing.php:163-168 | outside the zero-string case, PHP truthiness and the intended tests skip the same common prefix |
| Fraction.ReadingsAgree | src/FractionalIndexing.php:151-202 | outside the zero-string case, midpoint as written and as intended return the same result |
| Fraction.MidpointAsWritten | src/FractionalIndexing.php:151-202 | gives the same order error as the intended midpoint; the same trailing-zero error on `a`, and on any `b` other than `"0"` (PHP takes `"0"` for an absent bound); and the same result outside the zero-string case |
| Fraction.AsWrittenReturnsLowerBound | src/FractionalIndexing.php:168 | when the zero digit is not `'0'` and `d` is a digit `1`..`9` (so that PHP's numeric comparison at :155 also sees `"0" < "0d"`), `midpoint("0", "0d")` as written returns `"0"`, its own lower bound; the intended midpoint lies strictly between |
| KeyGenerator.GenerateKeyBetween | src/FractionalIndexing.php:21-88 | as intended, succeeds exactly when every present bound is a valid key and the lower is below the upper; the error is that of the first failing check; a result is a valid key strictly between the bounds |
| KeyGenerator.GenerateKeyBetweenCorrect | src/FractionalIndexing.php:21-88 | as intended, the case split on null bounds yields a valid key strictly between them on every admissible input, and fails on every other |
| KeyGenerator.KeyBelowCorrect | src/FractionalIndexing.php:33-55 | as intended, with no lower bound, the result is a valid key below the upper bound |
| KeyGenerator.KeyAboveCorrect | src/FractionalIndexing.php:57-67 | as intended, with no upper bound, the result is a valid key above the lower bound, even past the largest integer |
| KeyGenerator.KeyInsideCorrect | src/FractionalIndexing.php:69-87 | as intended, with both bounds, the result is a valid key strictly between them, so "cannot increment" is never thrown on valid bounds |
| KeyGenerator.BothNull | src/FractionalIndexing.php:34-36 | with both bounds null the key is `'a'` followed by the zero digit |
| KeyGenerator.BelowKeyWithFraction | src/FractionalIndexing.php:45-47 | with no lower bound, an upper bound with a fraction yields its own integer part, unless that is the reserved integer |
| KeyGenerator.AboveLargestInteger | src/FractionalIndexing.php:61-64 | with no upper bound and the largest integer part, the fraction is extended with midpoint instead of failing |
| KeyGenerator.ReservedPredecessor | src/FractionalIndexing.php:49-54 | decrementInteger yields the reserved integer from exactly one integer part: `'A'`, 25 zeros, then the digit one |
| KeyGenerator.AsWrittenReturnsReservedKey | src/FractionalIndexing.php:49-54 | as written, with no lower bound and that integer as upper bound, the result is the reserved key, which validateOrderKey rejects |
| KeyGenerator.GenerateKeyBetweenAsWritten | src/FractionalIndexing.php:21-32 | validates both bounds and their order first, with the same errors as the intended generator |
| KeyGenerator.AsWrittenAgrees | src/FractionalIndexing.php:21-88 | with the byte-wise comparison at :155 (see "## Left out"), the source and the corrected generator agree on every input except the two defect shapes |
| KeyGenerator.AsWrittenReturnsLowerBound | src/FractionalIndexing.php:74-75 | as written, when the zero digit is not `'0'` and `d` is a digit `1`..`9`, the key between `a00` and `a00d` is `a00` itself |
| KeyBatches.Join | src/FractionalIndexing.php:136 | keys between `a` and `c`, then `c`, then keys between `c` and `b`, ascend and lie between `a` and `b` |
| KeyBatches.ReverseDescending | src/FractionalIndexing.php:130 | `array_reverse` turns the descending keys of the backward loop into ascending ones |
| KeyBatches.ChainUp | src/FractionalIndexing.php:114-117 | under either reading, the forward loop yields exactly `k` keys or fails; when its first call fails, the loop fails with that call's error |
| KeyBatches.ChainDown | src/FractionalIndexing.php:125-128 | under either reading, the backward loop yields exactly `k` keys or fails; when its first call fails, the loop fails with that call's error |
| KeyBatches.KeysAbove | src/FractionalIndexing.php:111-120 | under either reading, `n` keys, or the error of the first call when that fails |
| KeyBatches.KeysBelow | src/FractionalIndexing.php:122-131 | under either reading, `n` keys, or the error of the first call when that fails |
| KeyBatches.GenerateNKeysBetweenWith | src/FractionalIndexing.php:103-137 | under either reading, `n = 0` gives no keys without checking the bounds; when generateKeyBetween fails on the bounds, the batch fails with its error; a result has exactly `n` keys |
| KeyBatches.ChainUpCorrect | src/FractionalIndexing.php:114-117 | as intended, the forward loop from a valid key never fails and yields valid keys, ascending, all above its start |
| KeyBatches.ChainDownCorrect | src/FractionalIndexing.php:125-128 | as intended, the backward loop from a valid key never fails and yields valid keys, descending, all below its start |
| KeyBatches.KeysAboveCorrect | src/FractionalIndexing.php:111-120 | as intended, with no upper bound: fails exactly as generateKeyBetween does, with its error; otherwise ascending valid keys above `a` |
| KeyBatches.KeysBelowCorrect | src/FractionalIndexing.php:122-131 | as intended, with no lower bound: fails exactly as generateKeyBetween does, with its error; otherwise ascending valid keys below `b` |
| KeyBatches.BisectCorrect | src/FractionalIndexing.php:133-136 | as intended, with two bounds: the key in the middle and the batches on either side of it join into ascending valid keys between the bounds; it fails exactly as generateKeyBetween does |
| KeyBatches.GenerateNKeysBetweenCorrect | src/FractionalIndexing.php:103-137 | as intended, for `n > 0` the batch fails exactly when generateKeyBetween fails, with its error, and otherwise holds ascending valid keys strictly between the bounds |
| KeyBatches.GenerateNKeysBetween | src/FractionalIndexing.php:103-137 | the corrected batch: `n = 0` gives no keys without checking the bounds; otherwise it fails exactly when generateKeyBetween does, with its error, and returns exactly `n` valid keys, strictly ascending, strictly between the bounds |
| KeyBatches.GenerateNKeysBetweenAsWritten | src/FractionalIndexing.php:103-137 | the source's batch, which calls generateKeyBetween as written: `n = 0` gives no keys; the bounds are validated first, with the errors of generateKeyBetween as written; a result has exactly `n` keys |
| KeyBatches.ChainUpAgrees | src/FractionalIndexing.php:114-117 | the forward loop never meets either defect: from every valid key, as written it yields the same keys as intended |
| KeyBatches.NoUpperBoundAgrees | src/FractionalIndexing.php:103-120 | with no upper bound, the batch as written equals the corrected batch for every `n` and every lower bound |
| KeyBatches.BatchReturnsReservedKey | src/FractionalIndexing.php:122-131 | as written, two keys below `'A'` + 25 zeros + the digit two are the reserved key and the integer after it, and three keys fail with the reserved-key error; the corrected batch returns three keys |
| KeyBatches.BatchRepeatsLowerBound | src/FractionalIndexing.php:133-136 | as written, when the zero digit is not `'0'`, three keys between `a00` and `a00d` (`d` a digit `1`..`9`) fail with the order error, because the middle key is `a00`; the corrected batch returns three keys |
| Vectors.MidpointExample | src/FractionalIndexing.php:198-200 | in base 10, the midpoint of `49` and `5` is `495`, as the comment there intends; PHP's numeric comparison at :155 would instead throw "49 >= 5" |
| Vectors.IncrementExample | tests/FractionalIndexingTests.php:86 | in base 10, the integer after `a9` is `b00` |
| Vectors.DecrementExample | tests/FractionalIndexingTests.php:38 | in base 62, the integer before `a0` is `Zz` |
| Vectors.InsideExample | tests/FractionalIndexingTests.php:42 | in base 62, the key between `a0` and `a1` is `a0V`, as written and as intended |
| Vectors.ReservedBoundExample | tests/FractionalIndexingTests.php:61 | in base 62, with no lower bound and `'A'`, 26 zeros and `1` as upper bound, the key is `'A'`, 27 zeros and `V`, as written and as intended |
| Vectors.CountUp | src/FractionalIndexing.php:114-117 | as intended, the forward loop from the one-digit integer `'a'` then digit `i` yields the next `k` one-digit integers in order |
| Vectors.BatchExample | tests/FractionalIndexingTests.php:85 | in base 10, five keys with no bounds are `a0 a1 a2 a3 a4`, as written and as intended |
| Vectors.ZeroStringBase95 | tests/FractionalIndexingTests.php:96-99 | with the test file's base-95 alphabet, generateKeyBetween as written returns `a00` for the bounds `a00` and `a005` |

## Left out

- PHP's numeric-string comparison in midpoint's `$a >= $b` (src/FractionalIndexing.php:155). PHP compares two numeric strings as numbers, so `"19" >= "2"` holds. The model compares byte-wise everywhere. The top-level comparisons are unaffected, because keys start with a letter. Inside midpoint the difference shows when the bounds share an integer part and, after the common prefix that src/FractionalIndexing.php:167-172 strips, the remaining fractions are both numeric strings. The test runs again on each recursive call at :172, so the fractions themselves need not be numeric. For example, `generateKeyBetween("a019", "a02")` throws "19 >= 2" in the source. So does `generateKeyBetween("a0V19", "a0V2")`: the comparison of `"V19"` with `"V2"` is byte-wise and passes, but after `"V"` is stripped, `"19"` is compared with `"2"` as numbers. In both cases the model returns a key between the bounds. The calls `midpoint("", b)` and `midpoint(a, null)` never compare numerically, so only this equal-integer-part path is affected.
- Exception messages are not modelled; each exception is an error kind. At src/FractionalIndexing.php:233 the message is built with `+`, which fails in PHP 8 before the exception is thrown. Either way the call fails, and the model reports a truncated key.
- The alphabet is never checked by the source. The model requires it to be strictly ascending with at least two digits.
- Characters after the head that are not in the alphabet make `strpos` return `false`. The model requires every such character of a bound to be a digit.
- `mb_ord` and `mb_chr` on the head are plain character-code arithmetic.
- `(int) round(0.5 * ($digitA + $digitB))` at src/FractionalIndexing.php:187 is `(digitA + digitB + 1) / 2`. These are equal for non-negative integers.
- Negative `n` in generateNKeysBetween is not modelled; `n` is a natural number. With one bound null, the source returns a single key for negative `n`, because the loop at src/FractionalIndexing.php:114 or :125 never runs. With two bounds it recurses without end.
- PHP 7's `substr`, which returns `false` past the end, is not modelled. PHP 8 semantics (`""` past the end) are used. The model also reads `$a[$n]` in the loop at src/FractionalIndexing.php:168 as `""` once `$n` passes the end of a non-empty `$a`, as in `generateKeyBetween("a03", "a035")`. PHP 8 emits an "Uninitialized string offset" warning there. Under an error handler that turns warnings into exceptions, as in tests/FractionalIndexingTests.php:14-16, the call throws. The model drops the warning.
- Fraction.PrefixScan: stops at the end of `b`. PHP would go on comparing `""` with `""` when `a` also ends there, which the order test before the loop excludes.
- Fraction.MidpointStrip: its own contract states only that the result uses the alphabet. That it lies strictly between the bounds is Fraction.StripCase, which needs the callers' guarantees in Fraction.MidpointPre.
- Fraction.MidpointFirst: its own contract states only that the result uses the alphabet. The ordering of its three cases is in Fraction.GapCase, Fraction.PrefixDigitCase and Fraction.ExtendCase.
- KeyBatches.ChainUpCorrect and KeyBatches.ChainDownCorrect require a valid starting key. The loops only ever start from a key that generateKeyBetween has just returned.
- KeyBatches.GenerateNKeysBetween is built on the corrected generator, so it does not inherit the two defects under "## Findings". The source's batch is KeyBatches.GenerateNKeysBetweenAsWritten. Its own contract states only the empty batch, the validation errors and the length.
- KeyBatches.GenerateNKeysBetweenAsWritten is tied to the corrected batch by KeyBatches.NoUpperBoundAgrees and the two counterexample lemmas. Agreement away from the defects is not proved for a null lower bound or for two bounds.
- KeyBatches.KeysBelow and KeyBatches.ChainDown: as written, the backward loop can return the reserved key and then fail on it (KeyBatches.BatchReturnsReservedKey). Their own contracts state only the length and the first call's error. The ordering is proved for the corrected reading only, in KeyBatches.KeysBelowCorrect and KeyBatches.ChainDownCorrect.
- KeyBatches.ChainUp and KeyBatches.KeysAbove: their own contracts state only the length and the first call's error. The ordering is in KeyBatches.ChainUpCorrect and KeyBatches.KeysAboveCorrect, and KeyBatches.ChainUpAgrees carries it over to the source's reading.
- KeyGenerator.GenerateKeyBetweenAsWritten: its contract states only the validation errors. Its results are tied to the corrected generator by KeyGenerator.AsWrittenAgrees and the two counterexample lemmas.
- The PHPUnit test class and its error-handler setup are not modelled; only the cases named under "## Model" are restated.

## Findings

| source | as written | input that shows it | evidently intended | confidence | as-written member | corrected member |
|---|---|---|---|---|---|---|
| src/FractionalIndexing.php:49-54 | with no lower bound and an upper bound that is a bare integer, the integer before it is returned even when that is the reserved key `'A'` + 26 zeros | `generateKeyBetween(null, 'A' + '0'×25 + '1')` returns `'A' + '0'×26`, which validateOrderKey rejects (:241-243); `generateNKeysBetween(null, 'A' + '0'×25 + '2', 2)` returns it as its first key, and with `n = 3` the next call throws the reserved-key error | never return the reserved key; past it, append `midpoint('', null)` as the reserved-integer branch at :41-43 does | high; not executed | KeyGenerator.AsWrittenReturnsReservedKey | KeyGenerator.GenerateKeyBetween |
| src/FractionalIndexing.php:168 | `empty($a)` is true for the string `"0"`, so a fraction `"0"` is padded with the zero digit as if it were empty | with the base-95 alphabet of the test file (zero digit is the space), `generateKeyBetween("a00", "a005")` returns `"a00"`, equal to its lower bound; `generateNKeysBetween("a00", "a005", 3)` then asks for a key between `"a00"` and `"a00"` and throws the order error | test for the empty string, `'' === $a`, as the `'0' === $a` test at :178 already does | high; not executed | Fraction.AsWrittenReturnsLowerBound | Fraction.Midpoint |

In both rows the corrected generator is proved by KeyGenerator.GenerateKeyBetweenCorrect, and the corrected batch by KeyBatches.GenerateNKeysBetweenCorrect. The batch consequences are KeyBatches.BatchReturnsReservedKey and KeyBatches.BatchRepeatsLowerBound. With the byte-wise comparison at :155 (see "## Left out"), KeyGenerator.AsWrittenAgrees shows it differs from the source only on these two input shapes. The second defect needs an alphabet whose zero digit is not `'0'`. With the default base-62 alphabet a fraction `"0"` ends in zero and is rejected first.

=== FILE: alphabet.dfy ===
/** The digit alphabet: the numeral system shared by the integer digits and
    the fractional part of every key. */
module Alphabet {
  import opened Lex

  /** `n` consecutive characters starting at `lo`. */
  function Span(lo: char, n: nat): (r: seq<char>)
    requires lo as int + n <= 0xD800
    ensures |r| == n
    ensures forall i :: 0 <= i < n ==> r[i] as int == lo as int + i
  {
    seq(n, i requires 0 <= i < n => (lo as int + i) as char)
  }

  /** The default alphabet BASE_62_DIGITS, `0123456789`, then `A` to `Z`,
      then `a` to `z`. */
  const Base62Digits: seq<char> := Span('0', 10) + Span('A', 26) + Span('a', 26)

  /** What the source demands of its callers' alphabets: digits in strictly
      ascending character-code order, and at least two of them (with a single
      digit, the fractional midpoint of nothing and nothing would never end). */
  predicate ValidDigits(digits: seq<char>) {
    && |digits| >= 2
    && forall i, j :: 0 <= i < j < |digits| ==> digits[i] < digits[j]
  }

  lemma Base62DigitsValid()
    ensures ValidDigits(Base62Digits)
    ensures Base62Digits[0] == '0' && |Base62Digits| == 62
  {
  }

  /** Every character of `s` is a digit of the alphabet. */
  predicate AllIn(s: seq<char>, digits: seq<char>) {
    forall i :: 0 <= i < |s| ==> s[i] in digits
  }

  /** `s` ends in the alphabet's zero digit, `substr($s, -1) === $digits[0]`. */
  predicate EndsInZero(s: seq<char>, digits: seq<char>)
    requires |digits| > 0
  {
    |s| > 0 && s[|s| - 1] == digits[0]
  }

  /** Position of `c` in the alphabet, PHP's `strpos($digits, $c)`. */
  function IndexOf(c: char, digits: seq<char>): (r: nat)
    requires c in digits
    ensures r < |digits| && digits[r] == c
    ensures forall j :: 0 <= j < r ==> digits[j] != c
  {
    if digits[0] == c then 0 else 1 + IndexOf(c, digits[1..])
  }

  /** `n` copies of `c`, PHP's `str_repeat`. */
  function Repeat(c: char, n: nat): (r: seq<char>)
    ensures |r| == n
    ensures forall i :: 0 <= i < n ==> r[i] == c
  {
    if n == 0 then [] else Repeat(c, n - 1) + [c]
  }

  lemma RepeatSnoc(p: seq<char>, c: char, m: char)
    ensures p + [c] == Repeat(m, |p| + 1) <==> p == Repeat(m, |p|) && c == m
  {
    var r := Repeat(m, |p| + 1);
    assert r == Repeat(m, |p|) + [m];
    if p + [c] == r {
      assert (p + [c])[..|p|] == p;
      assert r[..|p|] == Repeat(m, |p|);
    }
  }

  /** The largest digit of the alphabet, PHP's `substr($digits, -1)`. */
  function MaxDigit(digits: seq<char>): char
    requires |digits| > 0
  {
    digits[|digits| - 1]
  }

  function Pow(b: nat, e: nat): (r: nat)
    ensures b >= 1 ==> r >= 1
  {
    if e == 0 then 1 else b * Pow(b, e - 1)
  }

  /** The number a digit string denotes in base `|digits|`, most significant
      digit first.  It is the reference meaning of the carry and borrow loops. */
  function Value(s: seq<char>, digits: seq<char>): nat
    requires AllIn(s, digits)
    decreases |s|
  {
    if s == [] then 0
    else Value(s[..|s| - 1], digits) * |digits| + IndexOf(s[|s| - 1], digits)
  }

  lemma IndexOfDigit(digits: seq<char>, i: nat)
    requires ValidDigits(digits) && i < |digits|
    ensures IndexOf(digits[i], digits) == i
  {
  }

  /** In an ascending alphabet, digit order and character order agree. */
  lemma IndexOrder(digits: seq<char>, c: char, d: char)
    requires ValidDigits(digits) && c in digits && d in digits
    ensures c < d <==> IndexOf(c, digits) < IndexOf(d, digits)
  {
  }

  lemma AllInSlice(s: seq<char>, digits: seq<char>, lo: nat, hi: nat)
    requires AllIn(s, digits) && lo <= hi <= |s|
    ensures AllIn(s[lo..hi], digits)
  {
    assert forall i :: 0 <= i < hi - lo ==> s[lo..hi][i] == s[lo + i];
  }

  lemma AllInConcat(s: seq<char>, t: seq<char>, digits: seq<char>)
    requires AllIn(s, digits) && AllIn(t, digits)
    ensures AllIn(s + t, digits)
  {
    assert forall i :: |s| <= i < |s + t| ==> (s + t)[i] == t[i - |s|];
  }

  /** `u` places ahead of `v` in the high digits outweighs any low digit. */
  lemma PlaceValueLess(u: nat, v: nat, i: nat, j: nat, base: nat)
    requires u < v && i < base
    ensures u * base + i < v * base + j
  {
    assert (v - u - 1) * base >= 0;
    assert v * base == (u + 1) * base + (v - u - 1) * base;
  }

  /** The value of a numeral with one more low digit. */
  lemma ValueSnoc(p: seq<char>, c: char, digits: seq<char>)
    requires AllIn(p, digits) && c in digits
    ensures AllIn(p + [c], digits)
    ensures Value(p + [c], digits) == Value(p, digits) * |digits| + IndexOf(c, digits)
  {
    var s := p + [c];
    assert s[..|s| - 1] == p;
    assert forall i :: 0 <= i < |p| ==> s[i] == p[i];
  }

  lemma MulSucc(v: nat, b: nat)
    ensures (v + 1) * b == v * b + b
  {
  }

  lemma MulSubOne(p: nat, b: nat)
    requires p >= 1
    ensures (p - 1) * b + (b - 1) == b * p - 1
  {
  }

  lemma {:induction false} ValueBound(s: seq<char>, digits: seq<char>)
    requires |digits| >= 1 && AllIn(s, digits)
    ensures Value(s, digits) < Pow(|digits|, |s|)
    decreases |s|
  {
    if s != [] {
      var p := s[..|s| - 1];
      AllInSlice(s, digits, 0, |s| - 1);
      var d := IndexOf(s[|s| - 1], digits);
      var vp := Value(p, digits);
      var pw := Pow(|digits|, |p|);
      assert Value(s, digits) == vp * |digits| + d;
      assert Pow(|digits|, |s|) == |digits| * pw;
      ValueBound(p, digits);
      PlaceValueLess(vp, pw, d, 0, |digits|);
    }
  }

  /** For equally long digit strings, byte order is numeric order. */
  lemma {:induction false} ValueOrder(x: seq<char>, y: seq<char>, digits: seq<char>)
    requires ValidDigits(digits) && AllIn(x, digits) && AllIn(y, digits) && |x| == |y|
    ensures LexLess(x, y) <==> Value(x, digits) < Value(y, digits)
    ensures x == y <==> Value(x, digits) == Value(y, digits)
    decreases |x|
  {
    if x == [] {
      assert y == [];
    } else {
      var n := |x| - 1;
      AllInSlice(x, digits, 0, n);
      AllInSlice(y, digits, 0, n);
      ValueOrder(x[..n], y[..n], digits);
      ValueOrder(y[..n], x[..n], digits);
      Unsnoc(x);
      Unsnoc(y);
      ValueOrderStep(x, y, x[..n], y[..n], x[n], y[n], digits);
    }
  }

  /** A non-empty sequence is its front followed by its last element. */
  lemma Unsnoc(x: seq<char>)
    requires |x| > 0
    ensures x == x[..|x| - 1] + [x[|x| - 1]]
  {
  }

  /** One more low digit on each side keeps order and numeric order in step. */
  lemma ValueOrderStep(x: seq<char>, y: seq<char>, xp: seq<char>, yp: seq<char>, c: char, d: char, digits: seq<char>)
    requires ValidDigits(digits) && AllIn(xp, digits) && AllIn(yp, digits) && |xp| == |yp|
    requires c in digits && d in digits && x == xp + [c] && y == yp + [d]
    requires LexLess(xp, yp) <==> Value(xp, digits) < Value(yp, digits)
    requires LexLess(yp, xp) <==> Value(yp, digits) < Value(xp, digits)
    requires xp == yp <==> Value(xp, digits) == Value(yp, digits)
    ensures AllIn(x, digits) && AllIn(y, digits)
    ensures LexLess(x, y) <==> Value(x, digits) < Value(y, digits)
    ensures x == y <==> Value(x, digits) == Value(y, digits)
  {
    ValueSnoc(xp, c, digits);
    ValueSnoc(yp, d, digits);
    LexLessSnoc(xp, yp, c, d);
    LexLessTotal(xp, yp);
    IndexOrder(digits, c, d);
    IndexOrder(digits, d, c);
    var vx, vy := Value(xp, digits), Value(yp, digits);
    var ic, id := IndexOf(c, digits), IndexOf(d, digits);
    if LexLess(xp, yp) {
      PlaceValueLess(vx, vy, ic, id, |digits|);
      assert x[..|xp|] == xp;
    } else if LexLess(yp, xp) {
      PlaceValueLess(vy, vx, id, ic, |digits|);
      LexLessAsymmetric(yp, xp);
      assert x[..|xp|] == xp;
    } else {
      assert x[..|xp|] == xp && y[..|yp|] == yp;
    }
  }

  lemma {:induction false} ValueOfZeros(digits: seq<char>, n: nat)
    requires ValidDigits(digits)
    ensures AllIn(Repeat(digits[0], n), digits)
    ensures Value(Repeat(digits[0], n), digits) == 0
  {
    IndexOfDigit(digits, 0);
    if n > 0 {
      ValueOfZeros(digits, n - 1);
      assert Repeat(digits[0], n)[..n - 1] == Repeat(digits[0], n - 1);
    }
  }

  lemma {:induction false} ValueOfMaxes(digits: seq<char>, n: nat)
    requires ValidDigits(digits)
    ensures AllIn(Repeat(MaxDigit(digits), n), digits)
    ensures Value(Repeat(MaxDigit(digits), n), digits) == Pow(|digits|, n) - 1
  {
    IndexOfDigit(digits, |digits| - 1);
    if n > 0 {
      var s := Repeat(MaxDigit(digits), n);
      ValueOfMaxes(digits, n - 1);
      assert s[..n - 1] == Repeat(MaxDigit(digits), n - 1);
      var p := Pow(|digits|, n - 1);
      var b := |digits|;
      assert s[n - 1] == digits[b - 1];
      assert Value(s, digits) == Value(s[..n - 1], digits) * b + IndexOf(s[n - 1], digits);
      assert Value(s, digits) == (p - 1) * b + (b - 1);
      assert Pow(b, n) == b * p;
      MulSubOne(p, b);
    }
  }
}

=== FILE: fraction.dfy ===
/** The fractional midpoint (src/FractionalIndexing.php:151-202).

    A fractional part is read as the digits after a radix point, so that `a`
    and `b` denote numbers in [0, 1); `midpoint(a, b)` returns a digit string
    strictly between them (between `a` and 1 when `b` is null) that does not
    end in the zero digit. */
module Fraction {
  import opened Wrappers
  import opened Lex
  import opened Alphabet

  /** The two readings of the source's tests on strings.  `AsWritten` follows
      PHP truthiness: `$b` is false for `"0"`, and `empty($a)` is true for
      `"0"`.  `Intended` tests for null and for the empty string, which is
      what the surrounding comments describe. */
  datatype Reading = AsWritten | Intended

  /** `$b` in a boolean context, for an upper bound that may be null. */
  predicate BoundPresent(b: Option<seq<char>>, reading: Reading) {
    b.Some? && (reading == Intended || PhpTruthy(b.value))
  }

  /** `empty($a)`. */
  predicate TreatAsEmpty(a: seq<char>, reading: Reading) {
    a == [] || (reading == AsWritten && a == "0")
  }

  /** Position `i` of `b` continues the common prefix: `b[i]` equals `a[i]`,
      or the zero digit when `a` is being padded with zeros. */
  predicate Agrees(a: seq<char>, b: seq<char>, zero: char, padded: bool, i: nat)
    requires i < |b|
  {
    (if padded then Some(zero) else CharAt(a, i)) == Some(b[i])
  }

  /** The common-prefix loop: the end of the run of agreeing positions that
      starts at `n`.  The run stops at the end of `b`; PHP would compare `""`
      with `""` there, which the ordering test before the loop excludes. */
  function PrefixScan(a: seq<char>, b: seq<char>, zero: char, padded: bool, n: nat): (r: nat)
    requires n <= |b|
    ensures n <= r <= |b|
    ensures forall i :: n <= i < r ==> Agrees(a, b, zero, padded, i)
    ensures r < |b| ==> !Agrees(a, b, zero, padded, r)
    decreases |b| - n
  {
    if n < |b| && Agrees(a, b, zero, padded, n) then PrefixScan(a, b, zero, padded, n + 1) else n
  }

  /** `$n` after the common-prefix loop, which only runs when `$b` holds. */
  function StripLength(a: seq<char>, b: Option<seq<char>>, digits: seq<char>, reading: Reading): (n: nat)
    requires |digits| > 0
    ensures n > 0 ==> BoundPresent(b, reading) && n <= |b.value|
  {
    if BoundPresent(b, reading) then PrefixScan(a, b.value, digits[0], TreatAsEmpty(a, reading), 0) else 0
  }

  /** `$digitA`: the index of the first digit of `a`, 0 when `a` is empty. */
  function DigitA(a: seq<char>, digits: seq<char>): (d: nat)
    requires AllIn(a, digits)
    ensures d < |digits| || (a == [] && d == 0)
    ensures a != [] ==> digits[d] == a[0]
  {
    if a == [] then 0 else IndexOf(a[0], digits)
  }

  /** `$digitB`: the index of the first digit of `b`, the alphabet's size
      when `b` is null. */
  function DigitB(b: Option<seq<char>>, digits: seq<char>): (d: nat)
    requires b.Some? ==> b.value != [] && AllIn(b.value, digits)
    ensures d <= |digits|
    ensures b.Some? ==> d < |digits| && digits[d] == b.value[0]
  {
    if b.Some? then IndexOf(b.value[0], digits) else |digits|
  }

  /** midpoint, under either reading of its string tests: the ordering and
      trailing-zero checks (src/FractionalIndexing.php:155-161), then the
      common-prefix strip or the first-digit cases. */
  function MidpointWith(a: seq<char>, b: Option<seq<char>>, digits: seq<char>, reading: Reading)
    : (r: Result<seq<char>>)
    requires ValidDigits(digits) && AllIn(a, digits) && (b.Some? ==> AllIn(b.value, digits))
    ensures r.Ok? ==> AllIn(r.value, digits)
    decreases |a| + (if b.Some? then |b.value| else 0), 1
  {
    if b.Some? && !LexLess(a, b.value) then Err(OrderViolation)
    else if EndsInZero(a, digits) || (BoundPresent(b, reading) && EndsInZero(b.value, digits)) then
      Err(TrailingZero)
    else if StripLength(a, b, digits, reading) > 0 then MidpointStrip(a, b.value, digits, reading)
    else MidpointFirst(a, b, digits, reading)
  }

  /** A common prefix of length `n > 0` is kept, and the rest of the bounds
      is bisected (src/FractionalIndexing.php:163-173). */
  function MidpointStrip(a: seq<char>, bn: seq<char>, digits: seq<char>, reading: Reading)
    : (r: Result<seq<char>>)
    requires ValidDigits(digits) && AllIn(a, digits) && AllIn(bn, digits)
    requires StripLength(a, Some(bn), digits, reading) > 0
    ensures r.Ok? ==> AllIn(r.value, digits)
    decreases |a| + |bn|, 0
  {
    var n := StripLength(a, Some(bn), digits, reading);
    AllInSlice(bn, digits, n, |bn|);
    AllInSlice(bn, digits, 0, n);
    AllInSlice(a, digits, if n <= |a| then n else |a|, |a|);
    match MidpointWith(Substr(a, n), Some(bn[n..]), digits, reading)
    case Err(e) => Err(e)
    case Ok(m) => AllInConcat(bn[..n], m, digits); Ok(bn[..n] + m)
  }

  /** The first digits differ (src/FractionalIndexing.php:176-201): the
      rounded average digit when they are two or more apart; otherwise the
      first digit of a longer upper bound; otherwise the first digit of `a`
      followed by the midpoint of the rest of `a` and nothing. */
  function MidpointFirst(a: seq<char>, b: Option<seq<char>>, digits: seq<char>, reading: Reading)
    : (r: Result<seq<char>>)
    requires ValidDigits(digits) && AllIn(a, digits) && (b.Some? ==> AllIn(b.value, digits))
    requires b.Some? ==> LexLess(a, b.value)
    ensures r.Ok? ==> AllIn(r.value, digits)
    decreases |a| + (if b.Some? then |b.value| else 0), 0
  {
    var digitA, digitB := DigitA(a, digits), DigitB(b, digits);
    if digitB - digitA > 1 then
      assert digitA < (digitA + digitB + 1) / 2 < digitB;
      Ok([digits[(digitA + digitB + 1) / 2]])
    else if BoundPresent(b, reading) && |b.value| > 1 then
      Ok(b.value[..1])
    else
      assert b.None? ==> a != [];
      AllInSlice(a, digits, if a == [] then 0 else 1, |a|);
      match MidpointWith(Substr(a, 1), None, digits, reading)
      case Err(e) => Err(e)
      case Ok(m) => AllInConcat([digits[digitA]], m, digits); Ok([digits[digitA]] + m)
  }

  /** What the source's callers guarantee: digits from the alphabet, no
      trailing zero, and `a < b` when `b` is not null. */
  predicate MidpointPre(a: seq<char>, b: Option<seq<char>>, digits: seq<char>) {
    && ValidDigits(digits)
    && AllIn(a, digits)
    && !EndsInZero(a, digits)
    && (b.Some? ==> AllIn(b.value, digits) && !EndsInZero(b.value, digits) && LexLess(a, b.value))
  }

  /** The zero digit is the least digit. */
  lemma ZeroLeast(digits: seq<char>, c: char)
    requires ValidDigits(digits) && c in digits
    ensures digits[0] <= c
  {
    IndexOfDigit(digits, 0);
    IndexOrder(digits, c, digits[0]);
  }

  /** The property the midpoint is for: a non-empty result strictly between
      the bounds that does not end in zero. */
  predicate StrictlyBetween(r: Result<seq<char>>, a: seq<char>, b: Option<seq<char>>, digits: seq<char>)
    requires |digits| > 0
  {
    && r.Ok?
    && r.value != []
    && !EndsInZero(r.value, digits)
    && LexLess(a, r.value)
    && (b.Some? ==> LexLess(r.value, b.value))
  }

  /** The midpoint is strictly between its bounds and does not end in zero. */
  lemma {:induction false} MidpointBetween(a: seq<char>, b: Option<seq<char>>, digits: seq<char>)
    requires MidpointPre(a, b, digits)
    ensures StrictlyBetween(MidpointWith(a, b, digits, Intended), a, b, digits)
    decreases |a| + (if b.Some? then |b.value| else 0), 1
  {
    if StripLength(a, b, digits, Intended) > 0 {
      StripCase(a, b.value, digits);
    } else if DigitB(b, digits) - DigitA(a, digits) > 1 {
      GapCase(a, b, digits);
    } else if b.Some? && |b.value| > 1 {
      PrefixDigitCase(a, b.value, digits);
    } else {
      ExtendCase(a, b, digits);
    }
  }

  /** What the common-prefix loop establishes: the prefix it skips is a
      proper prefix of `b`, it is the whole of `a` or zeros when `a` is empty,
      and what is left of the bounds meets the midpoint's requirements again. */
  lemma StripFacts(a: seq<char>, bn: seq<char>, digits: seq<char>)
    requires MidpointPre(a, Some(bn), digits)
    requires StripLength(a, Some(bn), digits, Intended) > 0
    ensures var n := StripLength(a, Some(bn), digits, Intended);
      && n < |bn|
      && bn == bn[..n] + bn[n..]
      && MidpointPre(Substr(a, n), Some(bn[n..]), digits)
      && (a == [] ==> Substr(a, n) == [])
      && (a != [] ==> a == bn[..n] + Substr(a, n))
      && !Agrees(a, bn, digits[0], a == [], n)
  {
    var zero := digits[0];
    var n := StripLength(a, Some(bn), digits, Intended);
    assert n == PrefixScan(a, bn, zero, a == [], 0);
    var p, a', b' := bn[..n], Substr(a, n), bn[n..];
    AllInSlice(bn, digits, n, |bn|);
    if a == [] {
      assert !Agrees(a, bn, zero, true, |bn| - 1);
    } else {
      assert n <= |a| by {
        assert Agrees(a, bn, zero, false, n - 1);
      }
      assert a[..n] == p by {
        forall i | 0 <= i < n
          ensures a[i] == p[i]
        {
          assert Agrees(a, bn, zero, false, i);
        }
      }
      assert a == p + a';
      if n == |bn| {
        assert bn == p;
        NotLessThanPrefix(p, a');
        assert false;
      }
      AllInSlice(a, digits, n, |a|);
      assert bn == p + b';
      LexLessCommonPrefix(p, a', b');
    }
  }

  /** A common prefix is kept, and the rest is bisected. */
  lemma {:induction false} StripCase(a: seq<char>, bn: seq<char>, digits: seq<char>)
    requires MidpointPre(a, Some(bn), digits)
    requires StripLength(a, Some(bn), digits, Intended) > 0
    ensures StrictlyBetween(MidpointWith(a, Some(bn), digits, Intended), a, Some(bn), digits)
    decreases |a| + |bn|, 0
  {
    var n := StripLength(a, Some(bn), digits, Intended);
    var r := MidpointWith(a, Some(bn), digits, Intended);
    var p, a', b' := bn[..n], Substr(a, n), bn[n..];
    StripFacts(a, bn, digits);
    MidpointBetween(a', Some(b'), digits);
    var m := MidpointWith(a', Some(b'), digits, Intended).value;
    assert r == MidpointStrip(a, bn, digits, Intended);
    assert r.value == p + m;
    LexLessCommonPrefix(p, m, b');
    if a != [] {
      LexLessCommonPrefix(p, a', m);
    }
  }

  /** Dropping the first digit of `a` keeps the midpoint's requirements. */
  lemma ExtendFacts(a: seq<char>, digits: seq<char>)
    requires ValidDigits(digits) && AllIn(a, digits) && !EndsInZero(a, digits)
    ensures MidpointPre(Substr(a, 1), None, digits)
    ensures a != [] ==> a == [a[0]] + Substr(a, 1)
  {
    AllInSlice(a, digits, if a == [] then 0 else 1, |a|);
  }

  /** First digits at least two apart: the rounded average digit. */
  lemma GapCase(a: seq<char>, b: Option<seq<char>>, digits: seq<char>)
    requires MidpointPre(a, b, digits)
    requires StripLength(a, b, digits, Intended) == 0
    requires DigitB(b, digits) - DigitA(a, digits) > 1
    ensures StrictlyBetween(MidpointWith(a, b, digits, Intended), a, b, digits)
  {
    var digitA, digitB := DigitA(a, digits), DigitB(b, digits);
    var mid := (digitA + digitB + 1) / 2;
    assert MidpointWith(a, b, digits, Intended) == Ok([digits[mid]]);
    IndexOfDigit(digits, mid);
    if a != [] {
      IndexOrder(digits, a[0], digits[mid]);
    }
    if b.Some? {
      IndexOrder(digits, digits[mid], b.value[0]);
    }
  }

  /** Consecutive first digits and a longer upper bound: its first digit. */
  lemma PrefixDigitCase(a: seq<char>, bn: seq<char>, digits: seq<char>)
    requires MidpointPre(a, Some(bn), digits) && |bn| > 1
    requires StripLength(a, Some(bn), digits, Intended) == 0
    requires DigitB(Some(bn), digits) - DigitA(a, digits) <= 1
    ensures StrictlyBetween(MidpointWith(a, Some(bn), digits, Intended), a, Some(bn), digits)
  {
    assert !Agrees(a, bn, digits[0], a == [], 0);
    LexLessExtension(bn[..1], bn[1..]);
    assert bn[..1] + bn[1..] == bn;
    if a != [] {
      ZeroLeast(digits, a[0]);
    }
    assert MidpointWith(a, Some(bn), digits, Intended) == Ok(bn[..1]);
  }

  /** Consecutive first digits and no longer upper bound: keep the first
      digit of `a` and bisect the rest of it against nothing. */
  lemma {:induction false} ExtendCase(a: seq<char>, b: Option<seq<char>>, digits: seq<char>)
    requires MidpointPre(a, b, digits)
    requires StripLength(a, b, digits, Intended) == 0
    requires DigitB(b, digits) - DigitA(a, digits) <= 1
    requires b.Some? ==> |b.value| <= 1
    ensures StrictlyBetween(MidpointWith(a, b, digits, Intended), a, b, digits)
    decreases |a| + (if b.Some? then |b.value| else 0), 0
  {
    var zero := digits[0];
    var digitA := DigitA(a, digits);
    var a' := Substr(a, 1);
    ExtendFacts(a, digits);
    if a == [] {
      assert b.Some?;
      assert !Agrees(a, b.value, zero, true, 0);
      IndexOfDigit(digits, 0);
    } else {
      IndexOfDigit(digits, digitA);
    }
    MidpointBetween(a', None, digits);
    var m := MidpointWith(a', None, digits, Intended).value;
    assert MidpointWith(a, b, digits, Intended) == MidpointFirst(a, b, digits, Intended);
    assert MidpointWith(a, b, digits, Intended).value == [digits[digitA]] + m;
    if a != [] {
      LexLessCommonPrefix([a[0]], a', m);
    }
  }

  /** midpoint as evidently intended: fails exactly on the two errors the
      source throws, and otherwise returns a digit string strictly between
      its bounds that does not end in zero. */
  function Midpoint(a: seq<char>, b: Option<seq<char>>, digits: seq<char>): (r: Result<seq<char>>)
    requires ValidDigits(digits) && AllIn(a, digits) && (b.Some? ==> AllIn(b.value, digits))
    ensures r.Ok? ==> AllIn(r.value, digits)
    ensures b.Some? && !LexLess(a, b.value) ==> r == Err(OrderViolation)
    ensures && (b.None? || LexLess(a, b.value))
            && (EndsInZero(a, digits) || (b.Some? && EndsInZero(b.value, digits)))
            ==> r == Err(TrailingZero)
    ensures MidpointPre(a, b, digits) ==> StrictlyBetween(r, a, b, digits)
  {
    if MidpointPre(a, b, digits) then
      MidpointBetween(a, b, digits);
      MidpointWith(a, b, digits, Intended)
    else
      MidpointWith(a, b, digits, Intended)
  }

  /** The one input shape on which PHP truthiness changes the midpoint: a
      lower bound `"0"` that `empty()` takes for the empty string, against an
      upper bound that also starts with `'0'`. */
  predicate ZeroStringCase(a: seq<char>, b: Option<seq<char>>) {
    a == "0" && b.Some? && IsPrefix("0", b.value)
  }

  /** Away from the zero-string case, both readings skip the same common
      prefix. */
  lemma SameStripLength(a: seq<char>, b: Option<seq<char>>, digits: seq<char>)
    requires MidpointPre(a, b, digits)
    requires !ZeroStringCase(a, b)
    ensures StripLength(a, b, digits, AsWritten) == StripLength(a, b, digits, Intended)
  {
    var zero := digits[0];
    if b.Some? {
      var bn := b.value;
      if bn == "0" {
        if a == [] {
          assert !Agrees(a, bn, zero, true, 0);
        } else {
          LexLessHead(a, bn);
          assert bn[1..] == [];
          assert !Agrees(a, bn, zero, false, 0);
        }
      } else if a == "0" {
        ZeroLeast(digits, a[0]);
        assert !Agrees(a, bn, zero, true, 0);
        assert !Agrees(a, bn, zero, false, 0);
      }
    }
  }

  /** Away from the zero-string case, both readings compute the same midpoint. */
  lemma {:induction false} ReadingsAgree(a: seq<char>, b: Option<seq<char>>, digits: seq<char>)
    requires MidpointPre(a, b, digits)
    requires !ZeroStringCase(a, b)
    ensures MidpointWith(a, b, digits, AsWritten) == MidpointWith(a, b, digits, Intended)
    decreases |a| + (if b.Some? then |b.value| else 0)
  {
    SameStripLength(a, b, digits);
    var n := StripLength(a, b, digits, Intended);
    if n > 0 {
      StripFacts(a, b.value, digits);
      ReadingsAgree(Substr(a, n), Some(b.value[n..]), digits);
    } else if DigitB(b, digits) - DigitA(a, digits) > 1 {
    } else if b.Some? && |b.value| > 1 {
    } else {
      ExtendFacts(a, digits);
      ReadingsAgree(Substr(a, 1), None, digits);
    }
  }

  /** midpoint as written: the same errors, and the intended midpoint except
      in the zero-string case. */
  function MidpointAsWritten(a: seq<char>, b: Option<seq<char>>, digits: seq<char>): (r: Result<seq<char>>)
    requires ValidDigits(digits) && AllIn(a, digits) && (b.Some? ==> AllIn(b.value, digits))
    ensures r.Ok? ==> AllIn(r.value, digits)
    ensures b.Some? && !LexLess(a, b.value) ==> r == Err(OrderViolation)
    ensures (b.None? || LexLess(a, b.value)) && EndsInZero(a, digits) ==> r == Err(TrailingZero)
    ensures b.Some? && LexLess(a, b.value) && PhpTruthy(b.value) && EndsInZero(b.value, digits) ==> r == Err(TrailingZero)
    ensures MidpointPre(a, b, digits) && !ZeroStringCase(a, b) ==> r == Midpoint(a, b, digits)
  {
    if MidpointPre(a, b, digits) && !ZeroStringCase(a, b) then
      ReadingsAgree(a, b, digits);
      MidpointWith(a, b, digits, AsWritten)
    else
      MidpointWith(a, b, digits, AsWritten)
  }

  /** As written, when the zero digit is not `'0'`, `midpoint("0", "0d")`
      returns its own lower bound: `empty("0")` makes the prefix loop compare
      against the zero digit, the loop stops at once, and the consecutive-digit
      branch returns `b`'s first character, which is `"0"`.  The intended
      midpoint of the same bounds lies strictly between them. */
  lemma AsWrittenReturnsLowerBound(digits: seq<char>, d: char)
    requires ValidDigits(digits) && '0' in digits && digits[0] != '0' && d in digits && d != digits[0]
    requires '1' <= d <= '9'
    ensures MidpointPre("0", Some(['0', d]), digits)
    ensures MidpointAsWritten("0", Some(['0', d]), digits) == Ok("0")
    ensures StrictlyBetween(Midpoint("0", Some(['0', d]), digits), "0", Some(['0', d]), digits)
  {
    var a, b := "0", ['0', d];
    assert LexLess(a[1..], b[1..]);
    assert !Agrees(a, b, digits[0], true, 0);
    assert StripLength(a, Some(b), digits, AsWritten) == 0;
    assert MidpointWith(a, Some(b), digits, AsWritten) == MidpointFirst(a, Some(b), digits, AsWritten);
  }
}

=== FILE: integer_codec.dfy ===
/** The integer part of an order key (src/FractionalIndexing.php:204-336).

    An integer part is a head letter followed by a fixed number of digits;
    the head alone says how many.  Lower-case heads `a`..`z` carry 1..26
    digits, upper-case heads `A`..`Z` carry 26..1 digits, so that every
    integer sorts correctly against every other one under byte comparison:
    `A` + 26 zeros is the smallest, `z` + 26 maximal digits the largest,
    and `Z` + maximal digit is followed by `a` + zero. */
module IntegerCodec {
  import opened Wrappers
  import opened Lex
  import opened Alphabet

  /** A character that can start an order key. */
  predicate IsHead(c: char) {
    ('a' <= c <= 'z') || ('A' <= c <= 'Z')
  }

  /** Total length of an integer part whose head is `h`. */
  function HeadLength(h: char): nat
    requires IsHead(h)
  {
    if 'a' <= h <= 'z' then h as int - 'a' as int + 2
    else 'Z' as int - h as int + 2
  }

  /** `x` is a well-formed integer part: its length is the one its head encodes. */
  predicate ValidInteger(x: seq<char>) {
    |x| >= 1 && IsHead(x[0]) && |x| == HeadLength(x[0])
  }

  /** Every character after the head is a digit of the alphabet; the source
      looks these characters up with `strpos` and never checks them. */
  predicate KeyDigitsIn(k: seq<char>, digits: seq<char>) {
    |k| == 0 || AllIn(k[1..], digits)
  }

  /** The reserved smallest integer, `'A'.str_repeat($digits[0], 26)`. */
  function Sentinel(digits: seq<char>): (r: seq<char>)
    requires |digits| > 0
    ensures ValidInteger(r) && |r| == 27
  {
    ['A'] + Repeat(digits[0], 26)
  }

  /** A head followed by digits of the alphabet, taken apart again. */
  lemma Framed(h: char, d: seq<char>, digits: seq<char>)
    requires AllIn(d, digits)
    ensures ([h] + d)[0] == h && ([h] + d)[1..] == d && KeyDigitsIn([h] + d, digits)
  {
    assert ([h] + d)[1..] == d;
  }

  /** getIntegerLength (src/FractionalIndexing.php:214-224). */
  function IntegerLength(head: char): (r: Result<nat>)
    ensures r.Ok? <==> IsHead(head)
    ensures r.Err? ==> r.error == InvalidHead
    ensures r.Ok? ==> 2 <= r.value <= 27
    ensures 'a' <= head <= 'z' ==> r == Ok(head as int - 'a' as int + 2)
    ensures 'A' <= head <= 'Z' ==> r == Ok('Z' as int - head as int + 2)
  {
    if IsHead(head) then Ok(HeadLength(head)) else Err(InvalidHead)
  }

  /** getIntegerPart (src/FractionalIndexing.php:229-237): the integer prefix
      of a key.  An empty key has no head character (PHP reads `""`). */
  function IntegerPart(key: seq<char>): (r: Result<seq<char>>)
    ensures r.Ok? <==> |key| >= 1 && IsHead(key[0]) && HeadLength(key[0]) <= |key|
    ensures r.Ok? ==> ValidInteger(r.value) && IsPrefix(r.value, key)
    ensures r.Err? ==> r.error == (if |key| >= 1 && IsHead(key[0]) then TruncatedKey else InvalidHead)
  {
    if |key| == 0 then Err(InvalidHead)
    else
      var n :- IntegerLength(key[0]);
      if n > |key| then Err(TruncatedKey) else Ok(key[..n])
  }

  /** validateInteger (src/FractionalIndexing.php:204-209). */
  function ValidateInteger(x: seq<char>): (r: Outcome)
    ensures r.Pass? <==> ValidInteger(x)
    ensures r.Fail? ==> r.error == (if |x| >= 1 && IsHead(x[0]) then MalformedInteger else InvalidHead)
  {
    if |x| == 0 || !IsHead(x[0]) then Fail(InvalidHead)
    else if |x| != HeadLength(x[0]) then Fail(MalformedInteger)
    else Pass
  }

  /** What adding one to the fixed-width numeral `ds` promises: the same
      width, a carry out exactly when every digit is maximal (leaving all
      zeros), and otherwise a value one larger. */
  predicate IncrementSpec(ds: seq<char>, r: seq<char>, carry: bool, digits: seq<char>)
    requires ValidDigits(digits) && AllIn(ds, digits)
  {
    && |r| == |ds| && AllIn(r, digits)
    && (carry <==> ds == Repeat(MaxDigit(digits), |ds|))
    && (carry ==> r == Repeat(digits[0], |ds|))
    && (!carry ==> Value(r, digits) == Value(ds, digits) + 1)
  }

  /** What subtracting one promises: the same width, a borrow out exactly
      when every digit is zero (leaving all maximal digits), and otherwise a
      value one smaller. */
  predicate DecrementSpec(ds: seq<char>, r: seq<char>, borrow: bool, digits: seq<char>)
    requires ValidDigits(digits) && AllIn(ds, digits)
  {
    && |r| == |ds| && AllIn(r, digits)
    && (borrow <==> ds == Repeat(digits[0], |ds|))
    && (borrow ==> r == Repeat(MaxDigit(digits), |ds|))
    && (!borrow ==> Value(r, digits) + 1 == Value(ds, digits))
  }

  /** The carry loop of incrementInteger (src/FractionalIndexing.php:263-273):
      add one to a fixed-width numeral, rightmost digit first.  Returns the
      new digits and whether a carry came out of the leftmost one. */
  function IncrementDigits(ds: seq<char>, digits: seq<char>): (r: (seq<char>, bool))
    requires ValidDigits(digits) && AllIn(ds, digits)
    ensures |r.0| == |ds| && AllIn(r.0, digits)
    ensures r.1 <==> ds == Repeat(MaxDigit(digits), |ds|)
    ensures r.1 ==> r.0 == Repeat(digits[0], |ds|)
    ensures !r.1 ==> Value(r.0, digits) == Value(ds, digits) + 1
    decreases |ds|
  {
    if ds == [] then ([], true)
    else
      var p := ds[..|ds| - 1];
      AllInSlice(ds, digits, 0, |ds| - 1);
      var i := IndexOf(ds[|ds| - 1], digits);
      if i + 1 == |digits| then
        var (q, carry) := IncrementDigits(p, digits);
        IncrementCarryStep(ds, q, carry, digits);
        (q + [digits[0]], carry)
      else
        IncrementLastStep(ds, i, digits);
        (p + [digits[i + 1]], false)
  }

  /** The borrow loop of decrementInteger (src/FractionalIndexing.php:306-316):
      subtract one, rightmost digit first.  Returns the new digits and
      whether a borrow came out of the leftmost one. */
  function DecrementDigits(ds: seq<char>, digits: seq<char>): (r: (seq<char>, bool))
    requires ValidDigits(digits) && AllIn(ds, digits)
    ensures |r.0| == |ds| && AllIn(r.0, digits)
    ensures r.1 <==> ds == Repeat(digits[0], |ds|)
    ensures r.1 ==> r.0 == Repeat(MaxDigit(digits), |ds|)
    ensures !r.1 ==> Value(r.0, digits) + 1 == Value(ds, digits)
    decreases |ds|
  {
    if ds == [] then ([], true)
    else
      var p := ds[..|ds| - 1];
      AllInSlice(ds, digits, 0, |ds| - 1);
      var i := IndexOf(ds[|ds| - 1], digits);
      if i - 1 == -1 then
        var (q, borrow) := DecrementDigits(p, digits);
        DecrementBorrowStep(ds, q, borrow, digits);
        (q + [MaxDigit(digits)], borrow)
      else
        DecrementLastStep(ds, i, digits);
        (p + [digits[i - 1]], false)
  }

  /** The last digit is maximal: it becomes zero and the carry moves left. */
  lemma IncrementCarryStep(ds: seq<char>, q: seq<char>, carry: bool, digits: seq<char>)
    requires ValidDigits(digits) && AllIn(ds, digits) && ds != []
    requires ds[|ds| - 1] == MaxDigit(digits)
    requires AllIn(ds[..|ds| - 1], digits) && IncrementSpec(ds[..|ds| - 1], q, carry, digits)
    ensures IncrementSpec(ds, q + [digits[0]], carry, digits)
  {
    var p := ds[..|ds| - 1];
    assert ds == p + [MaxDigit(digits)];
    RepeatSnoc(p, MaxDigit(digits), MaxDigit(digits));
    RepeatSnoc(q, digits[0], digits[0]);
    ValueSnoc(q, digits[0], digits);
    if !carry {
      CarryValueStep(p, q, digits);
    }
  }

  /** The last digit is below the maximum: it goes up by one and nothing
      carries. */
  lemma IncrementLastStep(ds: seq<char>, i: nat, digits: seq<char>)
    requires ValidDigits(digits) && AllIn(ds, digits) && ds != []
    requires i + 1 < |digits| && ds[|ds| - 1] == digits[i]
    ensures AllIn(ds[..|ds| - 1], digits)
    ensures IncrementSpec(ds, ds[..|ds| - 1] + [digits[i + 1]], false, digits)
  {
    var p := ds[..|ds| - 1];
    AllInSlice(ds, digits, 0, |ds| - 1);
    assert ds == p + [digits[i]];
    assert digits[i] != MaxDigit(digits);
    RepeatSnoc(p, digits[i], MaxDigit(digits));
    IndexOfDigit(digits, i);
    IndexOfDigit(digits, i + 1);
    ValueSnoc(p, digits[i], digits);
    ValueSnoc(p, digits[i + 1], digits);
  }

  /** The last digit is zero: it becomes maximal and the borrow moves left. */
  lemma DecrementBorrowStep(ds: seq<char>, q: seq<char>, borrow: bool, digits: seq<char>)
    requires ValidDigits(digits) && AllIn(ds, digits) && ds != []
    requires ds[|ds| - 1] == digits[0]
    requires AllIn(ds[..|ds| - 1], digits) && DecrementSpec(ds[..|ds| - 1], q, borrow, digits)
    ensures DecrementSpec(ds, q + [MaxDigit(digits)], borrow, digits)
  {
    var p := ds[..|ds| - 1];
    assert ds == p + [digits[0]];
    RepeatSnoc(p, digits[0], digits[0]);
    RepeatSnoc(q, MaxDigit(digits), MaxDigit(digits));
    ValueSnoc(q, MaxDigit(digits), digits);
    if !borrow {
      CarryValueStep(q, p, digits);
    }
  }

  /** The last digit is above zero: it goes down by one and nothing
      borrows. */
  lemma DecrementLastStep(ds: seq<char>, i: nat, digits: seq<char>)
    requires ValidDigits(digits) && AllIn(ds, digits) && ds != []
    requires 0 < i < |digits| && ds[|ds| - 1] == digits[i]
    ensures AllIn(ds[..|ds| - 1], digits)
    ensures DecrementSpec(ds, ds[..|ds| - 1] + [digits[i - 1]], false, digits)
  {
    var p := ds[..|ds| - 1];
    AllInSlice(ds, digits, 0, |ds| - 1);
    assert ds == p + [digits[i]];
    assert digits[i] != digits[0];
    RepeatSnoc(p, digits[i], digits[0]);
    IndexOfDigit(digits, i);
    IndexOfDigit(digits, i - 1);
    ValueSnoc(p, digits[i], digits);
    ValueSnoc(p, digits[i - 1], digits);
  }

  /** A carry into the next digit: if `q` is one more than `p`, then `q`
      followed by the zero digit is one more than `p` followed by the
      largest digit. */
  lemma CarryValueStep(p: seq<char>, q: seq<char>, digits: seq<char>)
    requires ValidDigits(digits) && AllIn(p, digits) && AllIn(q, digits)
    requires Value(q, digits) == Value(p, digits) + 1
    ensures Value(q + [digits[0]], digits) == Value(p + [MaxDigit(digits)], digits) + 1
  {
    var b := |digits|;
    IndexOfDigit(digits, b - 1);
    IndexOfDigit(digits, 0);
    ValueSnoc(q, digits[0], digits);
    ValueSnoc(p, MaxDigit(digits), digits);
    assert Value(q + [digits[0]], digits) == Value(q, digits) * b;
    assert Value(p + [MaxDigit(digits)], digits) == Value(p, digits) * b + (b - 1);
    MulSucc(Value(p, digits), b);
  }

  /** A head followed by `n` copies of one digit, told apart by its pieces. */
  lemma HeadThenRepeat(x: seq<char>, h: char, c: char, n: nat)
    requires |x| == n + 1
    ensures x == [h] + Repeat(c, n) <==> x[0] == h && x[1..] == Repeat(c, n)
  {
    if x[0] == h && x[1..] == Repeat(c, n) {
      assert x == [x[0]] + x[1..];
    }
  }

  /** The carry left the digits all zero (src/FractionalIndexing.php:275-290):
      `Z` becomes `a` with one zero digit, `z` has no successor, any other
      head moves up one letter, gaining a zero digit in lower case and
      losing one in upper case. */
  function IncrementHead(head: char, digs: seq<char>, digits: seq<char>): (r: Option<seq<char>>)
    requires ValidDigits(digits) && IsHead(head) && |digs| + 1 == HeadLength(head) && AllIn(digs, digits)
    ensures r.None? <==> head == 'z'
    ensures r.Some? ==> ValidInteger(r.value) && KeyDigitsIn(r.value, digits)
  {
    if head == 'Z' then Some(['a', digits[0]])
    else if head == 'z' then None
    else
      var h := (head as int + 1) as char;
      if h > 'a' then
        AllInConcat(digs, [digits[0]], digits);
        Framed(h, digs + [digits[0]], digits);
        Some([h] + (digs + [digits[0]]))
      else
        AllInSlice(digs, digits, 0, |digs| - 1);
        Framed(h, digs[..|digs| - 1], digits);
        Some([h] + digs[..|digs| - 1])
  }

  /** The borrow left the digits all maximal (src/FractionalIndexing.php:318-333):
      `a` becomes `Z` with one maximal digit, `A` has no predecessor, any
      other head moves down one letter, gaining a maximal digit in upper
      case and losing one in lower case. */
  function DecrementHead(head: char, digs: seq<char>, digits: seq<char>): (r: Option<seq<char>>)
    requires ValidDigits(digits) && IsHead(head) && |digs| + 1 == HeadLength(head) && AllIn(digs, digits)
    ensures r.None? <==> head == 'A'
    ensures r.Some? ==> ValidInteger(r.value) && KeyDigitsIn(r.value, digits)
  {
    if head == 'a' then Some(['Z', MaxDigit(digits)])
    else if head == 'A' then None
    else
      var h := (head as int - 1) as char;
      if h < 'Z' then
        AllInConcat(digs, [MaxDigit(digits)], digits);
        Framed(h, digs + [MaxDigit(digits)], digits);
        Some([h] + (digs + [MaxDigit(digits)]))
      else
        AllInSlice(digs, digits, 0, |digs| - 1);
        Framed(h, digs[..|digs| - 1], digits);
        Some([h] + digs[..|digs| - 1])
  }

  /** incrementInteger (src/FractionalIndexing.php:258-293).  `Ok(None)` is
      PHP's `null`: there is no larger integer. */
  function IncrementInteger(x: seq<char>, digits: seq<char>): (r: Result<Option<seq<char>>>)
    requires ValidDigits(digits) && KeyDigitsIn(x, digits)
    ensures r.Err? <==> !ValidInteger(x)
    ensures r.Err? ==> ValidateInteger(x) == Fail(r.error)
    ensures r == Ok(None) <==> x == ['z'] + Repeat(MaxDigit(digits), 26)
    ensures r.Ok? && r.value.Some? ==> ValidInteger(r.value.value) && KeyDigitsIn(r.value.value, digits)
  {
    match ValidateInteger(x)
    case Fail(e) => Err(e)
    case Pass =>
      var (digs, carry) := IncrementDigits(x[1..], digits);
      HeadThenRepeat(x, 'z', MaxDigit(digits), |x| - 1);
      if !carry then
        Framed(x[0], digs, digits);
        Ok(Some([x[0]] + digs))
      else Ok(IncrementHead(x[0], digs, digits))
  }

  /** decrementInteger (src/FractionalIndexing.php:300-336).  `Ok(None)` is
      PHP's `null`: there is no smaller integer. */
  function DecrementInteger(x: seq<char>, digits: seq<char>): (r: Result<Option<seq<char>>>)
    requires ValidDigits(digits) && KeyDigitsIn(x, digits)
    ensures r.Err? <==> !ValidInteger(x)
    ensures r.Err? ==> ValidateInteger(x) == Fail(r.error)
    ensures r == Ok(None) <==> x == Sentinel(digits)
    ensures r.Ok? && r.value.Some? ==> ValidInteger(r.value.value) && KeyDigitsIn(r.value.value, digits)
  {
    match ValidateInteger(x)
    case Fail(e) => Err(e)
    case Pass =>
      var (digs, borrow) := DecrementDigits(x[1..], digits);
      HeadThenRepeat(x, 'A', digits[0], |x| - 1);
      if !borrow then
        Framed(x[0], digs, digits);
        Ok(Some([x[0]] + digs))
      else Ok(DecrementHead(x[0], digs, digits))
  }

  // ---------------------------------------------------------------------
  // Rank: the position of an integer part in the order of all integer parts.
  // Heads are numbered A..Z = 0..25 and a..z = 26..51; head k carries
  // DigitCount(k) digits, so there are base^DigitCount(k) integers with
  // that head, and Offset(k) of them sort before head k.

  function HeadIndex(h: char): (k: nat)
    requires IsHead(h)
    ensures k < 52
  {
    if 'A' <= h <= 'Z' then h as int - 'A' as int else h as int - 'a' as int + 26
  }

  function DigitCount(k: nat): nat
    requires k < 52
  {
    if k < 26 then 26 - k else k - 25
  }

  function Offset(k: nat, base: nat): nat
    requires k <= 52
  {
    if k == 0 then 0 else Offset(k - 1, base) + Pow(base, DigitCount(k - 1))
  }

  /** How many integer parts exist over an alphabet. */
  function IntegerCount(digits: seq<char>): nat {
    Offset(52, |digits|)
  }

  /** The position of `x` among all integer parts, counting from 0. */
  function Rank(x: seq<char>, digits: seq<char>): nat
    requires ValidDigits(digits) && ValidInteger(x) && KeyDigitsIn(x, digits)
  {
    Offset(HeadIndex(x[0]), |digits|) + Value(x[1..], digits)
  }

  lemma HeadFacts(h: char)
    requires IsHead(h)
    ensures HeadLength(h) == DigitCount(HeadIndex(h)) + 1
  {
  }

  lemma {:induction false} OffsetMonotone(j: nat, k: nat, base: nat)
    requires j <= k <= 52
    ensures Offset(j, base) <= Offset(k, base)
    decreases k
  {
    if j < k {
      OffsetMonotone(j, k - 1, base);
    }
  }

  /** A rank lies within its head's block. */
  lemma RankInBlock(x: seq<char>, digits: seq<char>)
    requires ValidDigits(digits) && ValidInteger(x) && KeyDigitsIn(x, digits)
    ensures Offset(HeadIndex(x[0]), |digits|) <= Rank(x, digits) < Offset(HeadIndex(x[0]) + 1, |digits|)
  {
    HeadFacts(x[0]);
    ValueBound(x[1..], digits);
  }

  /** Byte order on integer parts is rank order: the head-length encoding
      makes integers of different lengths compare as numbers. */
  lemma RankOrder(x: seq<char>, y: seq<char>, digits: seq<char>)
    requires ValidDigits(digits)
    requires ValidInteger(x) && KeyDigitsIn(x, digits)
    requires ValidInteger(y) && KeyDigitsIn(y, digits)
    ensures LexLess(x, y) <==> Rank(x, digits) < Rank(y, digits)
    ensures x == y <==> Rank(x, digits) == Rank(y, digits)
  {
    if x[0] == y[0] {
      RankSameHead(x, y, digits);
    } else if x[0] < y[0] {
      RankLowerHead(x, y, digits);
    } else {
      RankLowerHead(y, x, digits);
      LexLessAsymmetric(y, x);
    }
  }

  /** With the same head, order and rank both come from the digits. */
  lemma RankSameHead(x: seq<char>, y: seq<char>, digits: seq<char>)
    requires ValidDigits(digits)
    requires ValidInteger(x) && KeyDigitsIn(x, digits)
    requires ValidInteger(y) && KeyDigitsIn(y, digits)
    requires x[0] == y[0]
    ensures LexLess(x, y) <==> Rank(x, digits) < Rank(y, digits)
    ensures x == y <==> Rank(x, digits) == Rank(y, digits)
  {
    assert x == [x[0]] + x[1..] && y == [x[0]] + y[1..];
    LexLessCommonPrefix([x[0]], x[1..], y[1..]);
    ValueOrder(x[1..], y[1..], digits);
  }

  /** A smaller head puts the whole integer part in an earlier block. */
  lemma RankLowerHead(x: seq<char>, y: seq<char>, digits: seq<char>)
    requires ValidDigits(digits)
    requires ValidInteger(x) && KeyDigitsIn(x, digits)
    requires ValidInteger(y) && KeyDigitsIn(y, digits)
    requires x[0] < y[0]
    ensures LexLess(x, y) && Rank(x, digits) < Rank(y, digits)
  {
    RankInBlock(x, digits);
    RankInBlock(y, digits);
    assert HeadIndex(x[0]) < HeadIndex(y[0]);
    OffsetMonotone(HeadIndex(x[0]) + 1, HeadIndex(y[0]), |digits|);
  }

  /** The smallest integer part has rank 0. */
  lemma SentinelRank(digits: seq<char>)
    requires ValidDigits(digits)
    ensures KeyDigitsIn(Sentinel(digits), digits)
    ensures Rank(Sentinel(digits), digits) == 0
  {
    var s := Sentinel(digits);
    ValueOfZeros(digits, 26);
    assert s[1..] == Repeat(digits[0], 26);
  }

  /** Every integer part ranks below IntegerCount. */
  lemma RankBelowCount(x: seq<char>, digits: seq<char>)
    requires ValidDigits(digits) && ValidInteger(x) && KeyDigitsIn(x, digits)
    ensures Rank(x, digits) < IntegerCount(digits)
  {
    RankInBlock(x, digits);
    OffsetMonotone(HeadIndex(x[0]) + 1, 52, |digits|);
  }

  /** incrementInteger steps to the next integer part in rank order, and has
      no result exactly at the last one. */
  lemma IncrementRank(x: seq<char>, digits: seq<char>)
    requires ValidDigits(digits) && ValidInteger(x) && KeyDigitsIn(x, digits)
    ensures IncrementInteger(x, digits).Ok?
    ensures IncrementInteger(x, digits).value.None? <==> Rank(x, digits) + 1 == IntegerCount(digits)
    ensures IncrementInteger(x, digits).value.Some? ==>
              Rank(IncrementInteger(x, digits).value.value, digits) == Rank(x, digits) + 1
  {
    var r := IncrementInteger(x, digits);
    var (digs, carry) := IncrementDigits(x[1..], digits);
    HeadFacts(x[0]);
    if !carry {
      assert r.value.value[1..] == digs;
    } else {
      IncrementCarryRank(x, digits);
    }
    if r.value.Some? {
      RankBelowCount(r.value.value, digits);
    }
  }

  lemma IncrementCarryRank(x: seq<char>, digits: seq<char>)
    requires ValidDigits(digits) && ValidInteger(x) && KeyDigitsIn(x, digits)
    requires IncrementDigits(x[1..], digits).1
    ensures IncrementInteger(x, digits).Ok?
    ensures IncrementInteger(x, digits).value.None? ==> Rank(x, digits) + 1 == IntegerCount(digits)
    ensures IncrementInteger(x, digits).value.Some? ==>
              Rank(IncrementInteger(x, digits).value.value, digits) == Rank(x, digits) + 1
  {
    var r := IncrementInteger(x, digits);
    HeadFacts(x[0]);
    ValueOfMaxes(digits, |x| - 1);
    assert Rank(x, digits) + 1 == Offset(HeadIndex(x[0]) + 1, |digits|);
    if x[0] == 'Z' {
      ValueOfZeros(digits, 1);
      assert r.value.value[1..] == Repeat(digits[0], 1);
    } else if 'a' <= x[0] < 'z' {
      IncrementCarryLower(x, digits);
    } else if 'A' <= x[0] < 'Z' {
      IncrementCarryUpper(x, digits);
    }
  }

  /** A carry out of a lower-case head other than `z` moves to the next
      head, whose integers are one digit longer. */
  lemma IncrementCarryLower(x: seq<char>, digits: seq<char>)
    requires ValidDigits(digits) && ValidInteger(x) && KeyDigitsIn(x, digits)
    requires IncrementDigits(x[1..], digits).1 && 'a' <= x[0] < 'z'
    ensures IncrementInteger(x, digits).Ok? && IncrementInteger(x, digits).value.Some?
    ensures Rank(IncrementInteger(x, digits).value.value, digits) == Offset(HeadIndex(x[0]) + 1, |digits|)
  {
    var r := IncrementInteger(x, digits);
    var digs := IncrementDigits(x[1..], digits).0;
    var h := (x[0] as int + 1) as char;
    var n := DigitCount(HeadIndex(x[0]) + 1);
    HeadFacts(x[0]);
    HeadFacts(h);
    assert HeadIndex(h) == HeadIndex(x[0]) + 1;
    assert |digs| == |x| - 1;
    ValueOfZeros(digits, n);
    assert digs + [digits[0]] == Repeat(digits[0], n);
    assert r.value.value == [h] + (digs + [digits[0]]);
    assert r.value.value[1..] == Repeat(digits[0], n);
  }

  /** A carry out of an upper-case head other than `Z` moves to the next
      head, whose integers are one digit shorter. */
  lemma IncrementCarryUpper(x: seq<char>, digits: seq<char>)
    requires ValidDigits(digits) && ValidInteger(x) && KeyDigitsIn(x, digits)
    requires IncrementDigits(x[1..], digits).1 && 'A' <= x[0] < 'Z'
    ensures IncrementInteger(x, digits).Ok? && IncrementInteger(x, digits).value.Some?
    ensures Rank(IncrementInteger(x, digits).value.value, digits) == Offset(HeadIndex(x[0]) + 1, |digits|)
  {
    var r := IncrementInteger(x, digits);
    var digs := IncrementDigits(x[1..], digits).0;
    var h := (x[0] as int + 1) as char;
    var n := DigitCount(HeadIndex(x[0]) + 1);
    HeadFacts(x[0]);
    HeadFacts(h);
    assert HeadIndex(h) == HeadIndex(x[0]) + 1;
    assert |digs| == |x| - 1;
    ValueOfZeros(digits, n);
    assert digs == Repeat(digits[0], n) + [digits[0]];
    assert digs[..|digs| - 1] == Repeat(digits[0], n);
    assert r.value.value == [h] + digs[..|digs| - 1];
    assert r.value.value[1..] == Repeat(digits[0], n);
  }

  /** decrementInteger steps to the previous integer part in rank order, and
      has no result exactly at the first one. */
  lemma DecrementRank(x: seq<char>, digits: seq<char>)
    requires ValidDigits(digits) && ValidInteger(x) && KeyDigitsIn(x, digits)
    ensures DecrementInteger(x, digits).Ok?
    ensures DecrementInteger(x, digits).value.None? <==> Rank(x, digits) == 0
    ensures DecrementInteger(x, digits).value.Some? ==>
              Rank(DecrementInteger(x, digits).value.value, digits) + 1 == Rank(x, digits)
  {
    var r := DecrementInteger(x, digits);
    var (digs, borrow) := DecrementDigits(x[1..], digits);
    HeadFacts(x[0]);
    SentinelRank(digits);
    RankOrder(x, Sentinel(digits), digits);
    if !borrow {
      assert r.value.value[1..] == digs;
    } else {
      DecrementBorrowRank(x, digits);
    }
  }

  lemma DecrementBorrowRank(x: seq<char>, digits: seq<char>)
    requires ValidDigits(digits) && ValidInteger(x) && KeyDigitsIn(x, digits)
    requires DecrementDigits(x[1..], digits).1
    ensures DecrementInteger(x, digits).Ok?
    ensures DecrementInteger(x, digits).value.Some? ==>
              Rank(DecrementInteger(x, digits).value.value, digits) + 1 == Rank(x, digits)
  {
    var r := DecrementInteger(x, digits);
    HeadFacts(x[0]);
    ValueOfZeros(digits, |x| - 1);
    assert Rank(x, digits) == Offset(HeadIndex(x[0]), |digits|);
    if x[0] == 'a' {
      ValueOfMaxes(digits, 1);
      assert r.value.value[1..] == Repeat(MaxDigit(digits), 1);
    } else if 'a' < x[0] <= 'z' {
      DecrementBorrowLower(x, digits);
    } else if 'A' < x[0] <= 'Z' {
      DecrementBorrowUpper(x, digits);
    }
  }

  /** A borrow out of a lower-case head other than `a` moves to the previous
      head, whose integers are one digit shorter. */
  lemma DecrementBorrowLower(x: seq<char>, digits: seq<char>)
    requires ValidDigits(digits) && ValidInteger(x) && KeyDigitsIn(x, digits)
    requires DecrementDigits(x[1..], digits).1 && 'a' < x[0] <= 'z'
    ensures DecrementInteger(x, digits).Ok? && DecrementInteger(x, digits).value.Some?
    ensures Rank(DecrementInteger(x, digits).value.value, digits) + 1 == Offset(HeadIndex(x[0]), |digits|)
  {
    var r := DecrementInteger(x, digits);
    var digs := DecrementDigits(x[1..], digits).0;
    var h := (x[0] as int - 1) as char;
    var n := DigitCount(HeadIndex(h));
    HeadFacts(x[0]);
    HeadFacts(h);
    assert HeadIndex(h) + 1 == HeadIndex(x[0]);
    assert |digs| == |x| - 1;
    ValueOfMaxes(digits, n);
    assert digs == Repeat(MaxDigit(digits), n) + [MaxDigit(digits)];
    assert digs[..|digs| - 1] == Repeat(MaxDigit(digits), n);
    assert r.value.value == [h] + digs[..|digs| - 1];
    assert r.value.value[1..] == Repeat(MaxDigit(digits), n);
  }

  /** A borrow out of an upper-case head other than `A` moves to the
      previous head, whose integers are one digit longer. */
  lemma DecrementBorrowUpper(x: seq<char>, digits: seq<char>)
    requires ValidDigits(digits) && ValidInteger(x) && KeyDigitsIn(x, digits)
    requires DecrementDigits(x[1..], digits).1 && 'A' < x[0] <= 'Z'
    ensures DecrementInteger(x, digits).Ok? && DecrementInteger(x, digits).value.Some?
    ensures Rank(DecrementInteger(x, digits).value.value, digits) + 1 == Offset(HeadIndex(x[0]), |digits|)
  {
    var r := DecrementInteger(x, digits);
    var digs := DecrementDigits(x[1..], digits).0;
    var h := (x[0] as int - 1) as char;
    var n := DigitCount(HeadIndex(h));
    HeadFacts(x[0]);
    HeadFacts(h);
    assert HeadIndex(h) + 1 == HeadIndex(x[0]);
    assert |digs| == |x| - 1;
    ValueOfMaxes(digits, n);
    assert digs + [MaxDigit(digits)] == Repeat(MaxDigit(digits), n);
    assert r.value.value == [h] + (digs + [MaxDigit(digits)]);
    assert r.value.value[1..] == Repeat(MaxDigit(digits), n);
  }

  /** incrementInteger returns a larger integer part with no integer part
      in between; it returns `null` only when no integer part is larger. */
  lemma IncrementIsSuccessor(x: seq<char>, digits: seq<char>)
    requires ValidDigits(digits) && ValidInteger(x) && KeyDigitsIn(x, digits)
    ensures IncrementInteger(x, digits).Ok?
    ensures IncrementInteger(x, digits).value.Some? ==>
      var s := IncrementInteger(x, digits).value.value;
      && LexLess(x, s)
      && forall y :: ValidInteger(y) && KeyDigitsIn(y, digits) && LexLess(x, y) ==> !LexLess(y, s)
    ensures IncrementInteger(x, digits).value.None? ==>
      forall y :: ValidInteger(y) && KeyDigitsIn(y, digits) ==> !LexLess(x, y)
  {
    IncrementRank(x, digits);
    var r := IncrementInteger(x, digits);
    if r.value.Some? {
      var s := r.value.value;
      RankOrder(x, s, digits);
      forall y | ValidInteger(y) && KeyDigitsIn(y, digits) && LexLess(x, y)
        ensures !LexLess(y, s)
      {
        RankOrder(x, y, digits);
        RankOrder(y, s, digits);
      }
    } else {
      forall y | ValidInteger(y) && KeyDigitsIn(y, digits)
        ensures !LexLess(x, y)
      {
        RankOrder(x, y, digits);
        RankBelowCount(y, digits);
      }
    }
  }

  /** decrementInteger returns a smaller integer part with no integer part
      in between; it returns `null` only when no integer part is smaller. */
  lemma DecrementIsPredecessor(x: seq<char>, digits: seq<char>)
    requires ValidDigits(digits) && ValidInteger(x) && KeyDigitsIn(x, digits)
    ensures DecrementInteger(x, digits).Ok?
    ensures DecrementInteger(x, digits).value.Some? ==>
      var p := DecrementInteger(x, digits).value.value;
      && LexLess(p, x)
      && forall y :: ValidInteger(y) && KeyDigitsIn(y, digits) && LexLess(y, x) ==> !LexLess(p, y)
    ensures DecrementInteger(x, digits).value.None? ==>
      forall y :: ValidInteger(y) && KeyDigitsIn(y, digits) ==> !LexLess(y, x)
  {
    DecrementRank(x, digits);
    var r := DecrementInteger(x, digits);
    if r.value.Some? {
      var p := r.value.value;
      RankOrder(p, x, digits);
      forall y | ValidInteger(y) && KeyDigitsIn(y, digits) && LexLess(y, x)
        ensures !LexLess(p, y)
      {
        RankOrder(y, x, digits);
        RankOrder(p, y, digits);
      }
    } else {
      forall y | ValidInteger(y) && KeyDigitsIn(y, digits)
        ensures !LexLess(y, x)
      {
        RankOrder(y, x, digits);
      }
    }
  }

  /** Decrementing undoes incrementing. */
  lemma IncrementThenDecrement(x: seq<char>, digits: seq<char>)
    requires ValidDigits(digits) && ValidInteger(x) && KeyDigitsIn(x, digits)
    requires IncrementInteger(x, digits).Ok? && IncrementInteger(x, digits).value.Some?
    ensures DecrementInteger(IncrementInteger(x, digits).value.value, digits) == Ok(Some(x))
  {
    var s := IncrementInteger(x, digits).value.value;
    IncrementRank(x, digits);
    DecrementRank(s, digits);
    RankOrder(DecrementInteger(s, digits).value.value, x, digits);
  }

  /** Incrementing undoes decrementing. */
  lemma DecrementThenIncrement(x: seq<char>, digits: seq<char>)
    requires ValidDigits(digits) && ValidInteger(x) && KeyDigitsIn(x, digits)
    requires DecrementInteger(x, digits).Ok? && DecrementInteger(x, digits).value.Some?
    ensures IncrementInteger(DecrementInteger(x, digits).value.value, digits) == Ok(Some(x))
  {
    var p := DecrementInteger(x, digits).value.value;
    DecrementRank(x, digits);
    IncrementRank(p, digits);
    RankBelowCount(x, digits);
    RankOrder(IncrementInteger(p, digits).value.value, x, digits);
  }

  /** The carry between the two bands: `Z` + largest digit and `a` + zero
      are neighbours. */
  lemma BandCrossing(digits: seq<char>)
    requires ValidDigits(digits)
    ensures IncrementInteger(['Z', MaxDigit(digits)], digits) == Ok(Some(['a', digits[0]]))
    ensures DecrementInteger(['a', digits[0]], digits) == Ok(Some(['Z', MaxDigit(digits)]))
  {
    IndexOfDigit(digits, 0);
    IndexOfDigit(digits, |digits| - 1);
    var zs := IncrementDigits([MaxDigit(digits)], digits);
    assert [MaxDigit(digits)] == Repeat(MaxDigit(digits), 1);
    assert [digits[0]] == Repeat(digits[0], 1);
  }

  /** No integer part is a proper prefix of another: the head fixes the length. */
  lemma IntegerPrefixFree(x: seq<char>, y: seq<char>)
    requires ValidInteger(x) && ValidInteger(y) && IsPrefix(x, y)
    ensures x == y
  {
    assert x[0] == y[0];
  }

  /** Whatever follows two integer parts, the smaller integer sorts first. */
  lemma IntegerOrderExtends(x: seq<char>, y: seq<char>, s: seq<char>, t: seq<char>)
    requires ValidInteger(x) && ValidInteger(y) && LexLess(x, y)
    ensures LexLess(x + s, y + t)
  {
    if IsPrefix(x, y) {
      IntegerPrefixFree(x, y);
      LexLessIrreflexive(x);
    }
    LexLessNotPrefix(x, y, s, t);
  }
}

=== FILE: key_batches.dfy ===
/** Generating several keys at once (src/FractionalIndexing.php:103-137). */
module KeyBatches {
  import opened Wrappers
  import opened Lex
  import opened Alphabet
  import opened IntegerCodec
  import opened Validation
  import opened Fraction
  import opened KeyGenerator

  /** Strictly ascending under byte order. */
  predicate Ascending(ks: seq<seq<char>>) {
    forall i, j :: 0 <= i < j < |ks| ==> LexLess(ks[i], ks[j])
  }

  /** Strictly descending under byte order. */
  predicate Descending(ks: seq<seq<char>>) {
    forall i, j :: 0 <= i < j < |ks| ==> LexLess(ks[j], ks[i])
  }

  /** Every key lies strictly between the bounds that are present. */
  predicate AllBetween(a: Option<seq<char>>, ks: seq<seq<char>>, b: Option<seq<char>>) {
    forall i :: 0 <= i < |ks| ==> Between(a, ks[i], b)
  }

  /** Every key passes validateOrderKey and draws on the alphabet. */
  predicate AllKeys(ks: seq<seq<char>>, digits: seq<char>)
    requires |digits| > 0
  {
    forall i :: 0 <= i < |ks| ==> IsOrderKey(ks[i], digits)
  }

  /** PHP's array_reverse. */
  function Reverse<T>(s: seq<T>): (r: seq<T>)
    ensures |r| == |s|
    ensures forall i :: 0 <= i < |s| ==> r[i] == s[|s| - 1 - i]
  {
    if s == [] then [] else Reverse(s[1..]) + [s[0]]
  }

  /** Keys below `c`, between `a` and `c`, followed by `c`, followed by keys
      between `c` and `b`, ascend and lie between `a` and `b`. */
  lemma Join(a: Option<seq<char>>, lo: seq<seq<char>>, c: seq<char>, hi: seq<seq<char>>, b: Option<seq<char>>)
    requires Ascending(lo) && AllBetween(a, lo, Some(c))
    requires Ascending(hi) && AllBetween(Some(c), hi, b)
    requires Between(a, c, b)
    ensures Ascending(lo + [c] + hi) && AllBetween(a, lo + [c] + hi, b)
  {
    var ks := lo + [c] + hi;
    forall i, j | 0 <= i < j < |ks|
      ensures LexLess(ks[i], ks[j])
    {
      if i < |lo| && j > |lo| {
        LexLessTransitive(ks[i], c, ks[j]);
      }
    }
    forall i | 0 <= i < |ks|
      ensures Between(a, ks[i], b)
    {
      if i < |lo| && b.Some? {
        LexLessTransitive(ks[i], c, b.value);
      } else if i > |lo| && a.Some? {
        LexLessTransitive(a.value, c, ks[i]);
      }
    }
  }

  /** A key generated between two bounds splits them into two admissible
      pairs of bounds, as the recursion at src/FractionalIndexing.php:136
      needs. */
  lemma SplitAt(a: Option<seq<char>>, b: Option<seq<char>>, c: seq<char>, digits: seq<char>)
    requires ValidDigits(digits) && BoundDigitsIn(a, digits) && BoundDigitsIn(b, digits)
    requires GenerateKeyBetweenWith(a, b, digits, Intended) == Ok(c)
    ensures IsOrderKey(c, digits) && Between(a, c, b)
    ensures Admissible(a, Some(c), digits) && Admissible(Some(c), b, digits)
  {
    assert GenerateKeyBetween(a, b, digits) == Ok(c);
  }

  /** Joining valid keys around a valid key gives valid keys. */
  lemma AllKeysJoin(lo: seq<seq<char>>, c: seq<char>, hi: seq<seq<char>>, digits: seq<char>)
    requires |digits| > 0 && AllKeys(lo, digits) && IsOrderKey(c, digits) && AllKeys(hi, digits)
    ensures AllKeys(lo + [c] + hi, digits)
  {
    var ks := lo + [c] + hi;
    forall i | 0 <= i < |ks|
      ensures IsOrderKey(ks[i], digits)
    {
      if i > |lo| {
        assert ks[i] == hi[i - |lo| - 1];
      }
    }
  }

  /** Reversing a descending list of keys gives an ascending one with the
      same keys. */
  lemma ReverseDescending(ks: seq<seq<char>>, a: Option<seq<char>>, b: Option<seq<char>>, digits: seq<char>)
    requires |digits| > 0 && Descending(ks) && AllBetween(a, ks, b) && AllKeys(ks, digits)
    ensures Ascending(Reverse(ks)) && AllBetween(a, Reverse(ks), b) && AllKeys(Reverse(ks), digits)
  {
    var r := Reverse(ks);
    forall i, j | 0 <= i < j < |r|
      ensures LexLess(r[i], r[j])
    {
      assert r[i] == ks[|ks| - 1 - i] && r[j] == ks[|ks| - 1 - j];
    }
    forall i | 0 <= i < |r|
      ensures Between(a, r[i], b) && IsOrderKey(r[i], digits)
    {
      assert r[i] == ks[|ks| - 1 - i];
    }
  }

  /** The loop for a null upper bound (src/FractionalIndexing.php:114-117):
      each key is generated above the previous one, `k` of them above `c`;
      the first call that throws ends the batch with its error. */
  function ChainUp(c: seq<char>, k: nat, digits: seq<char>, reading: Reading): (r: Result<seq<seq<char>>>)
    requires ValidDigits(digits) && KeyDigitsIn(c, digits)
    ensures r.Ok? ==> |r.value| == k
    ensures k > 0 && GenerateKeyBetweenWith(Some(c), None, digits, reading).Err? ==>
              r == Err(GenerateKeyBetweenWith(Some(c), None, digits, reading).error)
    decreases k
  {
    if k == 0 then Ok([])
    else
      match GenerateKeyBetweenWith(Some(c), None, digits, reading)
      case Err(e) => Err(e)
      case Ok(d) =>
        match ChainUp(d, k - 1, digits, reading)
        case Err(e) => Err(e)
        case Ok(rest) => Ok([d] + rest)
  }

  /** The loop for a null lower bound (src/FractionalIndexing.php:125-128):
      each key is generated below the previous one, `k` of them below `c`,
      in descending order. */
  function ChainDown(c: seq<char>, k: nat, digits: seq<char>, reading: Reading): (r: Result<seq<seq<char>>>)
    requires ValidDigits(digits) && KeyDigitsIn(c, digits)
    ensures r.Ok? ==> |r.value| == k
    ensures k > 0 && GenerateKeyBetweenWith(None, Some(c), digits, reading).Err? ==>
              r == Err(GenerateKeyBetweenWith(None, Some(c), digits, reading).error)
    decreases k
  {
    if k == 0 then Ok([])
    else
      match GenerateKeyBetweenWith(None, Some(c), digits, reading)
      case Err(e) => Err(e)
      case Ok(d) =>
        match ChainDown(d, k - 1, digits, reading)
        case Err(e) => Err(e)
        case Ok(rest) => Ok([d] + rest)
  }

  /** `n` keys above `a` (src/FractionalIndexing.php:111-120): the first
      generated above `a`, the rest chained above it. */
  function KeysAbove(a: Option<seq<char>>, n: nat, digits: seq<char>, reading: Reading)
    : (r: Result<seq<seq<char>>>)
    requires ValidDigits(digits) && BoundDigitsIn(a, digits) && n >= 1
    ensures r.Ok? ==> |r.value| == n
    ensures GenerateKeyBetweenWith(a, None, digits, reading).Err? ==>
              r == Err(GenerateKeyBetweenWith(a, None, digits, reading).error)
  {
    match GenerateKeyBetweenWith(a, None, digits, reading)
    case Err(e) => Err(e)
    case Ok(c) =>
      match ChainUp(c, n - 1, digits, reading)
      case Err(e) => Err(e)
      case Ok(rest) => Ok([c] + rest)
  }

  /** `n` keys below `b` (src/FractionalIndexing.php:122-131): the last
      generated below `b`, the rest chained below it and then reversed. */
  function KeysBelow(b: seq<char>, n: nat, digits: seq<char>, reading: Reading): (r: Result<seq<seq<char>>>)
    requires ValidDigits(digits) && KeyDigitsIn(b, digits) && n >= 1
    ensures r.Ok? ==> |r.value| == n
    ensures GenerateKeyBetweenWith(None, Some(b), digits, reading).Err? ==>
              r == Err(GenerateKeyBetweenWith(None, Some(b), digits, reading).error)
  {
    match GenerateKeyBetweenWith(None, Some(b), digits, reading)
    case Err(e) => Err(e)
    case Ok(c) =>
      match ChainDown(c, n - 1, digits, reading)
      case Err(e) => Err(e)
      case Ok(rest) => Ok(Reverse([c] + rest))
  }

  /** generateNKeysBetween under either reading: no keys at all without
      looking at the bounds, one key, the two loops, or a key in the middle
      and a batch on each side of it. */
  function GenerateNKeysBetweenWith(a: Option<seq<char>>, b: Option<seq<char>>, n: nat, digits: seq<char>, reading: Reading)
    : (r: Result<seq<seq<char>>>)
    requires ValidDigits(digits) && BoundDigitsIn(a, digits) && BoundDigitsIn(b, digits)
    ensures n == 0 ==> r == Ok([])
    ensures n > 0 && GenerateKeyBetweenWith(a, b, digits, reading).Err? ==>
              r == Err(GenerateKeyBetweenWith(a, b, digits, reading).error)
    ensures r.Ok? ==> |r.value| == n
    decreases n
  {
    if n == 0 then Ok([])
    else if n == 1 then
      match GenerateKeyBetweenWith(a, b, digits, reading)
      case Err(e) => Err(e)
      case Ok(c) => Ok([c])
    else if b.None? then KeysAbove(a, n, digits, reading)
    else if a.None? then KeysBelow(b.value, n, digits, reading)
    else
      var mid := n / 2;
      match GenerateKeyBetweenWith(a, b, digits, reading)
      case Err(e) => Err(e)
      case Ok(c) =>
        match GenerateNKeysBetweenWith(a, Some(c), mid, digits, reading)
        case Err(e) => Err(e)
        case Ok(lo) =>
          match GenerateNKeysBetweenWith(Some(c), b, n - mid - 1, digits, reading)
          case Err(e) => Err(e)
          case Ok(hi) => Ok(lo + [c] + hi)
  }

  /** The forward loop, as intended, from a valid key: `k` valid keys,
      ascending, all above its start. */
  lemma {:induction false} ChainUpCorrect(c: seq<char>, k: nat, digits: seq<char>)
    requires ValidDigits(digits) && IsOrderKey(c, digits)
    ensures var r := ChainUp(c, k, digits, Intended);
      && r.Ok?
      && AllKeys(r.value, digits) && Ascending(r.value) && AllBetween(Some(c), r.value, None)
    decreases k
  {
    if k > 0 {
      var d := GenerateKeyBetween(Some(c), None, digits).value;
      SplitAt(Some(c), None, d, digits);
      ChainUpCorrect(d, k - 1, digits);
      var rest := ChainUp(d, k - 1, digits, Intended).value;
      ChainUpCons(c, k, d, rest, digits, Intended);
      ConsAbove(Some(c), d, rest, digits);
    }
  }

  /** One step of the forward loop. */
  lemma ChainUpCons(c: seq<char>, k: nat, d: seq<char>, rest: seq<seq<char>>, digits: seq<char>, reading: Reading)
    requires ValidDigits(digits) && KeyDigitsIn(c, digits) && k > 0
    requires GenerateKeyBetweenWith(Some(c), None, digits, reading) == Ok(d)
    requires KeyDigitsIn(d, digits) && ChainUp(d, k - 1, digits, reading) == Ok(rest)
    ensures ChainUp(c, k, digits, reading) == Ok([d] + rest)
  {
  }

  /** A valid key above `a`, followed by ascending valid keys above it, is a
      list of ascending valid keys above `a`. */
  lemma ConsAbove(a: Option<seq<char>>, d: seq<char>, rest: seq<seq<char>>, digits: seq<char>)
    requires |digits| > 0 && IsOrderKey(d, digits) && Between(a, d, None)
    requires AllKeys(rest, digits) && Ascending(rest) && AllBetween(Some(d), rest, None)
    ensures AllKeys([d] + rest, digits) && Ascending([d] + rest) && AllBetween(a, [d] + rest, None)
  {
    Join(a, [], d, rest, None);
    AllKeysJoin([], d, rest, digits);
    assert [] + [d] + rest == [d] + rest;
  }

  /** A valid key below `c`, followed by descending valid keys below it, is
      a list of descending valid keys below `c`. */
  lemma ConsBelow(c: seq<char>, d: seq<char>, rest: seq<seq<char>>, digits: seq<char>)
    requires |digits| > 0 && IsOrderKey(d, digits) && LexLess(d, c)
    requires AllKeys(rest, digits) && Descending(rest) && AllBetween(None, rest, Some(d))
    ensures AllKeys([d] + rest, digits) && Descending([d] + rest) && AllBetween(None, [d] + rest, Some(c))
  {
    var ks := [d] + rest;
    assert forall i :: 0 < i < |ks| ==> ks[i] == rest[i - 1];
    forall i | 0 < i < |ks|
      ensures LexLess(ks[i], c)
    {
      LexLessTransitive(ks[i], d, c);
    }
  }

  /** Descending valid keys below `c`, reversed and followed by `c`, ascend
      below `b`. */
  lemma ReverseBelow(b: seq<char>, c: seq<char>, rest: seq<seq<char>>, digits: seq<char>)
    requires |digits| > 0 && IsOrderKey(c, digits) && LexLess(c, b)
    requires AllKeys(rest, digits) && Descending(rest) && AllBetween(None, rest, Some(c))
    ensures var ks := Reverse([c] + rest);
      AllKeys(ks, digits) && Ascending(ks) && AllBetween(None, ks, Some(b))
  {
    ReverseDescending(rest, None, Some(c), digits);
    Join(None, Reverse(rest), c, [], Some(b));
    AllKeysJoin(Reverse(rest), c, [], digits);
    assert Reverse([c] + rest) == Reverse(rest) + [c] + [] by {
      assert ([c] + rest)[1..] == rest;
    }
  }

  /** The backward loop, as intended, from a valid key: `k` valid keys,
      descending, all below its start. */
  lemma {:induction false} ChainDownCorrect(c: seq<char>, k: nat, digits: seq<char>)
    requires ValidDigits(digits) && IsOrderKey(c, digits)
    ensures var r := ChainDown(c, k, digits, Intended);
      && r.Ok?
      && AllKeys(r.value, digits) && Descending(r.value) && AllBetween(None, r.value, Some(c))
    decreases k
  {
    if k > 0 {
      var d := GenerateKeyBetween(None, Some(c), digits).value;
      SplitAt(None, Some(c), d, digits);
      ChainDownCorrect(d, k - 1, digits);
      var rest := ChainDown(d, k - 1, digits, Intended).value;
      ChainDownCons(c, k, d, rest, digits, Intended);
      ConsBelow(c, d, rest, digits);
    }
  }

  /** One step of the backward loop. */
  lemma ChainDownCons(c: seq<char>, k: nat, d: seq<char>, rest: seq<seq<char>>, digits: seq<char>, reading: Reading)
    requires ValidDigits(digits) && KeyDigitsIn(c, digits) && k > 0
    requires GenerateKeyBetweenWith(None, Some(c), digits, reading) == Ok(d)
    requires KeyDigitsIn(d, digits) && ChainDown(d, k - 1, digits, reading) == Ok(rest)
    ensures ChainDown(c, k, digits, reading) == Ok([d] + rest)
  {
  }

  /** The first key above `a`, then the forward loop from it. */
  lemma KeysAboveCons(a: Option<seq<char>>, n: nat, c: seq<char>, rest: seq<seq<char>>, digits: seq<char>, reading: Reading)
    requires ValidDigits(digits) && BoundDigitsIn(a, digits) && n >= 1
    requires GenerateKeyBetweenWith(a, None, digits, reading) == Ok(c)
    requires KeyDigitsIn(c, digits) && ChainUp(c, n - 1, digits, reading) == Ok(rest)
    ensures KeysAbove(a, n, digits, reading) == Ok([c] + rest)
  {
  }

  /** The last key below `b`, then the backward loop from it, reversed. */
  lemma KeysBelowCons(b: seq<char>, n: nat, c: seq<char>, rest: seq<seq<char>>, digits: seq<char>, reading: Reading)
    requires ValidDigits(digits) && KeyDigitsIn(b, digits) && n >= 1
    requires GenerateKeyBetweenWith(None, Some(b), digits, reading) == Ok(c)
    requires KeyDigitsIn(c, digits) && ChainDown(c, n - 1, digits, reading) == Ok(rest)
    ensures KeysBelow(b, n, digits, reading) == Ok(Reverse([c] + rest))
  {
  }

  /** `n` keys above `a`, as intended: they fail exactly as generateKeyBetween
      fails, and are otherwise `n` valid keys, ascending, above `a`. */
  lemma KeysAboveCorrect(a: Option<seq<char>>, n: nat, digits: seq<char>)
    requires ValidDigits(digits) && BoundDigitsIn(a, digits) && n >= 1
    ensures var r := KeysAbove(a, n, digits, Intended);
      && (r.Ok? <==> Admissible(a, None, digits))
      && (r.Err? ==> r == Err(GenerateKeyBetween(a, None, digits).error))
      && (r.Ok? ==> AllKeys(r.value, digits) && Ascending(r.value) && AllBetween(a, r.value, None))
  {
    if Admissible(a, None, digits) {
      KeysAboveAdmissible(a, n, digits);
    } else {
      assert GenerateKeyBetweenWith(a, None, digits, Intended) == GenerateKeyBetween(a, None, digits);
    }
  }

  /** `n` keys above an admissible `a`: the first key, then the forward
      loop from it. */
  lemma KeysAboveAdmissible(a: Option<seq<char>>, n: nat, digits: seq<char>)
    requires ValidDigits(digits) && BoundDigitsIn(a, digits) && n >= 1 && Admissible(a, None, digits)
    ensures var r := KeysAbove(a, n, digits, Intended);
      r.Ok? && AllKeys(r.value, digits) && Ascending(r.value) && AllBetween(a, r.value, None)
  {
    var c := GenerateKeyBetween(a, None, digits).value;
    SplitAt(a, None, c, digits);
    ChainUpCorrect(c, n - 1, digits);
    var rest := ChainUp(c, n - 1, digits, Intended).value;
    KeysAboveCons(a, n, c, rest, digits, Intended);
    ConsAbove(a, c, rest, digits);
  }

  /** `n` keys below `b`, as intended: they fail exactly as generateKeyBetween
      fails, and are otherwise `n` valid keys, ascending, below `b`. */
  lemma KeysBelowCorrect(b: seq<char>, n: nat, digits: seq<char>)
    requires ValidDigits(digits) && KeyDigitsIn(b, digits) && n >= 1
    ensures var r := KeysBelow(b, n, digits, Intended);
      && (r.Ok? <==> Admissible(None, Some(b), digits))
      && (r.Err? ==> r == Err(GenerateKeyBetween(None, Some(b), digits).error))
      && (r.Ok? ==> AllKeys(r.value, digits) && Ascending(r.value) && AllBetween(None, r.value, Some(b)))
  {
    assert GenerateKeyBetweenWith(None, Some(b), digits, Intended) == GenerateKeyBetween(None, Some(b), digits);
    if Admissible(None, Some(b), digits) {
      var c := GenerateKeyBetween(None, Some(b), digits).value;
      SplitAt(None, Some(b), c, digits);
      ChainDownCorrect(c, n - 1, digits);
      var rest := ChainDown(c, n - 1, digits, Intended).value;
      KeysBelowCons(b, n, c, rest, digits, Intended);
      ReverseBelow(b, c, rest, digits);
    }
  }

  /** generateNKeysBetween as intended: it fails exactly when
      generateKeyBetween fails on the same bounds, with the same error, and
      otherwise returns valid keys, ascending, strictly between the bounds. */
  lemma {:induction false} GenerateNKeysBetweenCorrect(a: Option<seq<char>>, b: Option<seq<char>>, n: nat, digits: seq<char>)
    requires ValidDigits(digits) && BoundDigitsIn(a, digits) && BoundDigitsIn(b, digits)
    ensures var r := GenerateNKeysBetweenWith(a, b, n, digits, Intended);
      && (n > 0 ==> (r.Ok? <==> Admissible(a, b, digits)))
      && (n > 0 && r.Err? ==> r == Err(GenerateKeyBetween(a, b, digits).error))
      && (r.Ok? ==> AllKeys(r.value, digits) && Ascending(r.value) && AllBetween(a, r.value, b))
    decreases n, 1
  {
    assert GenerateKeyBetweenWith(a, b, digits, Intended) == GenerateKeyBetween(a, b, digits);
    if n == 1 {
    } else if n > 1 && b.None? {
      KeysAboveCorrect(a, n, digits);
      assert GenerateNKeysBetweenWith(a, b, n, digits, Intended) == KeysAbove(a, n, digits, Intended);
    } else if n > 1 && a.None? {
      KeysBelowCorrect(b.value, n, digits);
      assert GenerateNKeysBetweenWith(a, b, n, digits, Intended) == KeysBelow(b.value, n, digits, Intended);
    } else if n > 1 {
      BisectCorrect(a, b, n, digits);
    }
  }

  /** Two bounds, as intended: the key in the middle splits them, and the
      two batches on either side of it join into one. */
  lemma {:induction false} BisectCorrect(a: Option<seq<char>>, b: Option<seq<char>>, n: nat, digits: seq<char>)
    requires ValidDigits(digits) && BoundDigitsIn(a, digits) && BoundDigitsIn(b, digits)
    requires a.Some? && b.Some? && n > 1
    ensures var r := GenerateNKeysBetweenWith(a, b, n, digits, Intended);
      && (r.Ok? <==> Admissible(a, b, digits))
      && (r.Err? ==> r == Err(GenerateKeyBetween(a, b, digits).error))
      && (r.Ok? ==> AllKeys(r.value, digits) && Ascending(r.value) && AllBetween(a, r.value, b))
    decreases n, 0
  {
    assert GenerateKeyBetweenWith(a, b, digits, Intended) == GenerateKeyBetween(a, b, digits);
    if Admissible(a, b, digits) {
      var mid := n / 2;
      var c := GenerateKeyBetween(a, b, digits).value;
      SplitAt(a, b, c, digits);
      GenerateNKeysBetweenCorrect(a, Some(c), mid, digits);
      GenerateNKeysBetweenCorrect(Some(c), b, n - mid - 1, digits);
      var lo := GenerateNKeysBetweenWith(a, Some(c), mid, digits, Intended).value;
      var hi := GenerateNKeysBetweenWith(Some(c), b, n - mid - 1, digits, Intended).value;
      Join(a, lo, c, hi, b);
      AllKeysJoin(lo, c, hi, digits);
      assert GenerateNKeysBetweenWith(a, b, n, digits, Intended) == Ok(lo + [c] + hi);
    }
  }

  /** generateNKeysBetween as evidently intended: `n` keys, ascending,
      strictly between the bounds that are present.  It fails exactly when
      generateKeyBetween fails on the same bounds, with the same error,
      except that no keys at all are returned without looking at the
      bounds. */
  function GenerateNKeysBetween(a: Option<seq<char>>, b: Option<seq<char>>, n: nat, digits: seq<char>)
    : (r: Result<seq<seq<char>>>)
    requires ValidDigits(digits) && BoundDigitsIn(a, digits) && BoundDigitsIn(b, digits)
    ensures n == 0 ==> r == Ok([])
    ensures n > 0 ==> (r.Ok? <==> Admissible(a, b, digits))
    ensures n > 0 && r.Err? ==> r == Err(GenerateKeyBetween(a, b, digits).error)
    ensures r.Ok? ==>
      && |r.value| == n
      && AllKeys(r.value, digits)
      && Ascending(r.value)
      && AllBetween(a, r.value, b)
  {
    GenerateNKeysBetweenCorrect(a, b, n, digits);
    GenerateNKeysBetweenWith(a, b, n, digits, Intended)
  }

  /** generateNKeysBetween as written: every call goes to generateKeyBetween
      as written.  No keys without looking at the bounds; otherwise the
      bounds are validated first, with the errors of generateKeyBetween. */
  function GenerateNKeysBetweenAsWritten(a: Option<seq<char>>, b: Option<seq<char>>, n: nat, digits: seq<char>)
    : (r: Result<seq<seq<char>>>)
    requires ValidDigits(digits) && BoundDigitsIn(a, digits) && BoundDigitsIn(b, digits)
    ensures n == 0 ==> r == Ok([])
    ensures n > 0 && GenerateKeyBetweenAsWritten(a, b, digits).Err? ==>
              r == Err(GenerateKeyBetweenAsWritten(a, b, digits).error)
    ensures r.Ok? ==> |r.value| == n
  {
    GenerateNKeysBetweenWith(a, b, n, digits, AsWritten)
  }

  /** The forward loop never meets either defect: as written and as intended
      it yields the same keys. */
  lemma {:induction false} ChainUpAgrees(c: seq<char>, k: nat, digits: seq<char>)
    requires ValidDigits(digits) && IsOrderKey(c, digits)
    ensures ChainUp(c, k, digits, AsWritten) == ChainUp(c, k, digits, Intended)
    decreases k
  {
    if k > 0 {
      var d := GenerateKeyBetween(Some(c), None, digits).value;
      SplitAt(Some(c), None, d, digits);
      ChainUpCorrect(d, k - 1, digits);
      var rest := ChainUp(d, k - 1, digits, Intended).value;
      ChainUpCons(c, k, d, rest, digits, Intended);
      ChainUpAgrees(d, k - 1, digits);
      AboveAgrees(c, digits);
      ChainUpCons(c, k, d, rest, digits, AsWritten);
    }
  }

  /** With no upper bound, one key as written is the key as intended. */
  lemma AboveAgrees(c: seq<char>, digits: seq<char>)
    requires ValidDigits(digits) && IsOrderKey(c, digits)
    ensures GenerateKeyBetweenWith(Some(c), None, digits, AsWritten)
            == GenerateKeyBetweenWith(Some(c), None, digits, Intended)
  {
    AsWrittenAgrees(Some(c), None, digits);
  }

  /** With no upper bound, generateNKeysBetween as written and as intended
      agree on every input. */
  lemma NoUpperBoundAgrees(a: Option<seq<char>>, n: nat, digits: seq<char>)
    requires ValidDigits(digits) && BoundDigitsIn(a, digits)
    ensures GenerateNKeysBetweenAsWritten(a, None, n, digits) == GenerateNKeysBetween(a, None, n, digits)
  {
    if n > 0 {
      AsWrittenAgrees(a, None, digits);
      if n > 1 && Admissible(a, None, digits) {
        var c := GenerateKeyBetween(a, None, digits).value;
        SplitAt(a, None, c, digits);
        ChainUpAgrees(c, n - 1, digits);
        ChainUpCorrect(c, n - 1, digits);
        var rest := ChainUp(c, n - 1, digits, Intended).value;
        KeysAboveCons(a, n, c, rest, digits, Intended);
        KeysAboveCons(a, n, c, rest, digits, AsWritten);
      }
    }
  }

  /** As written, the backward loop walks into the reserved key: below the
      integer two above it, two keys are the reserved key and the integer
      after it, and a third key fails, since the reserved key is rejected
      as a bound.  As intended, any number of keys is returned. */
  lemma BatchReturnsReservedKey(digits: seq<char>)
    requires ValidDigits(digits) && |digits| >= 3
    ensures var b := TwoAboveReserved(digits);
      && IsOrderKey(b, digits)
      && GenerateNKeysBetweenAsWritten(None, Some(b), 2, digits)
         == Ok([Sentinel(digits), AboveReserved(digits)])
      && GenerateNKeysBetweenAsWritten(None, Some(b), 3, digits) == Err(ReservedKey)
      && GenerateNKeysBetween(None, Some(b), 3, digits).Ok?
  {
    var b, u, s := TwoAboveReserved(digits), AboveReserved(digits), Sentinel(digits);
    IntegerKey(b, digits);
    LexLessIrreflexive(b);
    TwoAboveReservedPredecessor(digits);
    assert GenerateKeyBetweenWith(None, Some(b), digits, AsWritten) == Ok(u);
    AsWrittenReturnsReservedKey(digits);
    assert GenerateKeyBetweenWith(None, Some(u), digits, AsWritten) == Ok(s);
    SentinelRank(digits);
    assert ChainDown(s, 0, digits, AsWritten) == Ok([]);
    assert [s] + [] == [s];
    assert ChainDown(u, 1, digits, AsWritten) == Ok([s]);
    assert Reverse([u] + [s]) == [s, u];
    assert GenerateKeyBetweenWith(None, Some(s), digits, AsWritten) == Err(ReservedKey);
    assert ChainDown(u, 2, digits, AsWritten) == Err(ReservedKey);
  }

  /** As written, when the zero digit is not `'0'`, three keys between `a00`
      and `a00d` fail: the middle key is `a00` itself, and the batch below
      it asks for a key between `a00` and `a00`.  As intended, three keys
      are returned. */
  lemma BatchRepeatsLowerBound(digits: seq<char>, d: char)
    requires ValidDigits(digits) && '0' in digits && digits[0] != '0' && d in digits && d != digits[0]
    requires '1' <= d <= '9'
    ensures var a, b := "a00", "a00" + [d];
      && IsOrderKey(a, digits) && IsOrderKey(b, digits) && LexLess(a, b)
      && GenerateNKeysBetweenAsWritten(Some(a), Some(b), 3, digits) == Err(OrderViolation)
      && GenerateNKeysBetween(Some(a), Some(b), 3, digits).Ok?
  {
    var a, b := "a00", "a00" + [d];
    KeyGenerator.AsWrittenReturnsLowerBound(digits, d);
    LexLessIrreflexive(a);
    assert GenerateNKeysBetweenWith(Some(a), Some(a), 1, digits, AsWritten) == Err(OrderViolation);
  }
}

=== FILE: key_generator.dfy ===
/** Key generation (src/FractionalIndexing.php:21-137).

    generateKeyBetween returns a key strictly between two optional bounds,
    where a null lower bound means "before everything" and a null upper
    bound "after everything"; generateNKeysBetween returns several. */
module KeyGenerator {
  import opened Wrappers
  import opened Lex
  import opened Alphabet
  import opened IntegerCodec
  import opened Validation
  import opened Fraction

  /** A bound's characters after the head are digits of the alphabet. */
  predicate BoundDigitsIn(k: Option<seq<char>>, digits: seq<char>) {
    k.Some? ==> KeyDigitsIn(k.value, digits)
  }

  /** The bounds generateKeyBetween accepts: each present bound is a valid
      key, and the lower one is below the upper one. */
  predicate Admissible(a: Option<seq<char>>, b: Option<seq<char>>, digits: seq<char>)
    requires |digits| > 0
  {
    && (a.Some? ==> WellFormedKey(a.value, digits))
    && (b.Some? ==> WellFormedKey(b.value, digits))
    && (a.Some? && b.Some? ==> LexLess(a.value, b.value))
  }

  /** `k` lies strictly between the bounds that are present. */
  predicate Between(a: Option<seq<char>>, k: seq<char>, b: Option<seq<char>>) {
    (a.Some? ==> LexLess(a.value, k)) && (b.Some? ==> LexLess(k, b.value))
  }

  /** A key followed by digits of the alphabet still draws on the alphabet. */
  lemma KeyDigitsExtend(k: seq<char>, m: seq<char>, digits: seq<char>)
    requires |k| > 0 && KeyDigitsIn(k, digits) && AllIn(m, digits)
    ensures KeyDigitsIn(k + m, digits)
  {
    assert (k + m)[1..] == k[1..] + m;
    AllInConcat(k[1..], m, digits);
  }

  /** The null lower bound: the integer part of `b` if `b` has a fraction,
      otherwise the integer before it (src/FractionalIndexing.php:33-55). */
  function KeyBelow(b: seq<char>, digits: seq<char>, reading: Reading): (r: Result<seq<char>>)
    requires ValidDigits(digits) && IsOrderKey(b, digits)
    ensures r.Ok? ==> KeyDigitsIn(r.value, digits)
  {
    KeyParts(b, digits);
    var ib, fb := IntPart(b), FracPart(b);
    if ib == Sentinel(digits) then
      var m :- MidpointWith([], Some(fb), digits, reading);
      KeyDigitsExtend(ib, m, digits);
      Ok(ib + m)
    else if LexLess(ib, b) then
      Ok(ib)
    else
      match DecrementInteger(ib, digits)
      case Err(e) => Err(e)
      case Ok(None) => Err(Exhausted)
      case Ok(Some(res)) =>
        if reading == Intended && res == Sentinel(digits) then
          var m :- MidpointWith([], None, digits, reading);
          KeyDigitsExtend(res, m, digits);
          Ok(res + m)
        else
          Ok(res)
  }

  /** The null upper bound: the integer after `a`'s, or past the largest
      integer a longer fraction (src/FractionalIndexing.php:57-67). */
  function KeyAbove(a: seq<char>, digits: seq<char>, reading: Reading): (r: Result<seq<char>>)
    requires ValidDigits(digits) && IsOrderKey(a, digits)
    ensures r.Ok? ==> KeyDigitsIn(r.value, digits)
  {
    KeyParts(a, digits);
    var ia, fa := IntPart(a), FracPart(a);
    match IncrementInteger(ia, digits)
    case Err(e) => Err(e)
    case Ok(None) =>
      var m :- MidpointWith(fa, None, digits, reading);
      KeyDigitsExtend(ia, m, digits);
      Ok(ia + m)
    case Ok(Some(i)) => Ok(i)
  }

  /** Two bounds: bisect the fractions under a shared integer part, else try
      the integer after `a`'s, else extend `a`'s fraction
      (src/FractionalIndexing.php:69-87). */
  function KeyInside(a: seq<char>, b: seq<char>, digits: seq<char>, reading: Reading): (r: Result<seq<char>>)
    requires ValidDigits(digits) && IsOrderKey(a, digits) && IsOrderKey(b, digits)
    ensures r.Ok? ==> KeyDigitsIn(r.value, digits)
  {
    KeyParts(a, digits);
    KeyParts(b, digits);
    var ia, fa, ib, fb := IntPart(a), FracPart(a), IntPart(b), FracPart(b);
    if ia == ib then
      var m :- MidpointWith(fa, Some(fb), digits, reading);
      KeyDigitsExtend(ia, m, digits);
      Ok(ia + m)
    else
      match IncrementInteger(ia, digits)
      case Err(e) => Err(e)
      case Ok(None) => Err(Exhausted)
      case Ok(Some(i)) =>
        if LexLess(i, b) then
          Ok(i)
        else
          var m :- MidpointWith(fa, None, digits, reading);
          KeyDigitsExtend(ia, m, digits);
          Ok(ia + m)
  }

  /** generateKeyBetween under either reading: both bounds are validated,
      then their order, then the case split on which bounds are null. */
  function GenerateKeyBetweenWith(a: Option<seq<char>>, b: Option<seq<char>>, digits: seq<char>, reading: Reading)
    : (r: Result<seq<char>>)
    requires ValidDigits(digits) && BoundDigitsIn(a, digits) && BoundDigitsIn(b, digits)
    ensures r.Ok? ==> KeyDigitsIn(r.value, digits)
  {
    if a.Some? && ValidateOrderKey(a.value, digits).Fail? then Err(ValidateOrderKey(a.value, digits).error)
    else if b.Some? && ValidateOrderKey(b.value, digits).Fail? then Err(ValidateOrderKey(b.value, digits).error)
    else if a.Some? && b.Some? && !LexLess(a.value, b.value) then Err(OrderViolation)
    else if a.None? && b.None? then Ok(['a', digits[0]])
    else if a.None? then KeyBelow(b.value, digits, reading)
    else if b.None? then KeyAbove(a.value, digits, reading)
    else KeyInside(a.value, b.value, digits, reading)
  }

  /** The key below a valid key is valid and below it. */
  lemma KeyBelowCorrect(b: seq<char>, digits: seq<char>)
    requires ValidDigits(digits) && IsOrderKey(b, digits)
    ensures var r := KeyBelow(b, digits, Intended);
      r.Ok? && IsOrderKey(r.value, digits) && LexLess(r.value, b)
  {
    KeyParts(b, digits);
    var ib, fb := IntPart(b), FracPart(b);
    var r := KeyBelow(b, digits, Intended);
    if ib == Sentinel(digits) {
      MidpointBetween([], Some(fb), digits);
      var m := MidpointWith([], Some(fb), digits, Intended).value;
      assert r == Ok(ib + m);
      FractionKey(ib, m, digits);
      LexLessCommonPrefix(ib, m, fb);
    } else if LexLess(ib, b) {
      IntegerKey(ib, digits);
    } else {
      assert fb == [] by {
        LexLessExtension(ib, fb);
      }
      assert b == ib;
      DecrementRank(ib, digits);
      var res := DecrementInteger(ib, digits).value.value;
      SentinelRank(digits);
      RankOrder(res, ib, digits);
      if res == Sentinel(digits) {
        MidpointBetween([], None, digits);
        var m := MidpointWith([], None, digits, Intended).value;
        assert r == Ok(res + m);
        FractionKey(res, m, digits);
        IntegerOrderExtends(res, ib, m, []);
        assert ib + [] == ib;
      } else {
        IntegerKey(res, digits);
      }
    }
  }

  /** The key above a valid key is valid and above it. */
  lemma KeyAboveCorrect(a: seq<char>, digits: seq<char>)
    requires ValidDigits(digits) && IsOrderKey(a, digits)
    ensures var r := KeyAbove(a, digits, Intended);
      r.Ok? && IsOrderKey(r.value, digits) && LexLess(a, r.value)
  {
    KeyParts(a, digits);
    var ia, fa := IntPart(a), FracPart(a);
    IncrementRank(ia, digits);
    match IncrementInteger(ia, digits).value
    case None =>
      MidpointBetween(fa, None, digits);
      var m := MidpointWith(fa, None, digits, Intended).value;
      FractionKey(ia, m, digits);
      LexLessCommonPrefix(ia, fa, m);
    case Some(i) =>
      SentinelRank(digits);
      RankOrder(ia, i, digits);
      RankOrder(i, Sentinel(digits), digits);
      IntegerKey(i, digits);
      IntegerOrderExtends(ia, i, fa, []);
      assert i + [] == i;
  }

  /** The key between two ordered valid keys is valid and between them. */
  lemma KeyInsideCorrect(a: seq<char>, b: seq<char>, digits: seq<char>)
    requires ValidDigits(digits) && IsOrderKey(a, digits) && IsOrderKey(b, digits) && LexLess(a, b)
    ensures var r := KeyInside(a, b, digits, Intended);
      r.Ok? && IsOrderKey(r.value, digits) && LexLess(a, r.value) && LexLess(r.value, b)
  {
    KeyParts(a, digits);
    KeyParts(b, digits);
    var ia, fa, ib, fb := IntPart(a), FracPart(a), IntPart(b), FracPart(b);
    IntPartOrder(a, b, digits);
    if ia == ib {
      LexLessCommonPrefix(ia, fa, fb);
      MidpointBetween(fa, Some(fb), digits);
      var m := MidpointWith(fa, Some(fb), digits, Intended).value;
      FractionKey(ia, m, digits);
      LexLessCommonPrefix(ia, fa, m);
      LexLessCommonPrefix(ia, m, fb);
    } else {
      IncrementRank(ia, digits);
      RankOrder(ia, ib, digits);
      RankBelowCount(ib, digits);
      var i := IncrementInteger(ia, digits).value.value;
      if LexLess(i, b) {
        SentinelRank(digits);
        RankOrder(ia, i, digits);
        RankOrder(i, Sentinel(digits), digits);
        IntegerKey(i, digits);
        IntegerOrderExtends(ia, i, fa, []);
        assert i + [] == i;
      } else {
        MidpointBetween(fa, None, digits);
        var m := MidpointWith(fa, None, digits, Intended).value;
        FractionKey(ia, m, digits);
        LexLessCommonPrefix(ia, fa, m);
        IntegerOrderExtends(ia, ib, m, fb);
      }
    }
  }

  /** The whole of generateKeyBetween, as evidently intended. */
  lemma {:induction false} GenerateKeyBetweenCorrect(a: Option<seq<char>>, b: Option<seq<char>>, digits: seq<char>)
    requires ValidDigits(digits) && BoundDigitsIn(a, digits) && BoundDigitsIn(b, digits)
    ensures var r := GenerateKeyBetweenWith(a, b, digits, Intended);
      && (r.Ok? <==> Admissible(a, b, digits))
      && (r.Ok? ==> IsOrderKey(r.value, digits) && Between(a, r.value, b))
  {
    if Admissible(a, b, digits) {
      if a.None? && b.None? {
        IntegerKey(['a', digits[0]], digits);
      } else if a.None? {
        KeyBelowCorrect(b.value, digits);
      } else if b.None? {
        KeyAboveCorrect(a.value, digits);
      } else {
        KeyInsideCorrect(a.value, b.value, digits);
      }
    }
  }

  /** generateKeyBetween as evidently intended: it fails exactly when a bound
      is not a valid key or the bounds are out of order, with the error of
      the first check that fails, and otherwise returns a valid key strictly
      between the bounds. */
  function GenerateKeyBetween(a: Option<seq<char>>, b: Option<seq<char>>, digits: seq<char>): (r: Result<seq<char>>)
    requires ValidDigits(digits) && BoundDigitsIn(a, digits) && BoundDigitsIn(b, digits)
    ensures r.Ok? <==> Admissible(a, b, digits)
    ensures r.Ok? ==> IsOrderKey(r.value, digits) && Between(a, r.value, b)
    ensures a.Some? && ValidateOrderKey(a.value, digits).Fail? ==> r == Err(ValidateOrderKey(a.value, digits).error)
    ensures && (a.None? || ValidateOrderKey(a.value, digits).Pass?)
            && b.Some? && ValidateOrderKey(b.value, digits).Fail?
            ==> r == Err(ValidateOrderKey(b.value, digits).error)
    ensures && a.Some? && b.Some? && WellFormedKey(a.value, digits) && WellFormedKey(b.value, digits)
            && !LexLess(a.value, b.value)
            ==> r == Err(OrderViolation)
  {
    GenerateKeyBetweenCorrect(a, b, digits);
    GenerateKeyBetweenWith(a, b, digits, Intended)
  }

  /** generateKeyBetween as written: without the step around the reserved
      key, and with midpoint's PHP truthiness. */
  function GenerateKeyBetweenAsWritten(a: Option<seq<char>>, b: Option<seq<char>>, digits: seq<char>)
    : (r: Result<seq<char>>)
    requires ValidDigits(digits) && BoundDigitsIn(a, digits) && BoundDigitsIn(b, digits)
    ensures a.Some? && ValidateOrderKey(a.value, digits).Fail? ==> r == Err(ValidateOrderKey(a.value, digits).error)
    ensures && (a.None? || ValidateOrderKey(a.value, digits).Pass?)
            && b.Some? && ValidateOrderKey(b.value, digits).Fail?
            ==> r == Err(ValidateOrderKey(b.value, digits).error)
    ensures && a.Some? && b.Some? && WellFormedKey(a.value, digits) && WellFormedKey(b.value, digits)
            && !LexLess(a.value, b.value)
            ==> r == Err(OrderViolation)
  {
    GenerateKeyBetweenWith(a, b, digits, AsWritten)
  }

  /** Both bounds null: the integer `'a'` followed by one zero digit. */
  lemma BothNull(digits: seq<char>)
    requires ValidDigits(digits)
    ensures GenerateKeyBetween(None, None, digits) == Ok(['a', digits[0]])
  {
  }

  /** A null lower bound and an upper bound with a fraction: the upper
      bound's integer part, unless that is the reserved one. */
  lemma BelowKeyWithFraction(b: seq<char>, digits: seq<char>)
    requires ValidDigits(digits) && IsOrderKey(b, digits)
    requires FracPart(b) != [] && IntPart(b) != Sentinel(digits)
    ensures GenerateKeyBetween(None, Some(b), digits) == Ok(IntPart(b))
  {
    LexLessExtension(IntPart(b), FracPart(b));
  }

  /** A null upper bound and a lower bound whose integer is the largest: the
      integer is kept and its fraction extended instead of failing. */
  lemma AboveLargestInteger(a: seq<char>, digits: seq<char>)
    requires ValidDigits(digits) && IsOrderKey(a, digits)
    requires IntPart(a) == ['z'] + Repeat(MaxDigit(digits), 26)
    ensures && AllIn(FracPart(a), digits)
            && Midpoint(FracPart(a), None, digits).Ok?
            && GenerateKeyBetween(Some(a), None, digits)
               == Ok(IntPart(a) + Midpoint(FracPart(a), None, digits).value)
  {
    KeyParts(a, digits);
    ExtendFacts(FracPart(a), digits);
    assert Substr(FracPart(a), 0) == FracPart(a);
  }

  /** The integer just above the reserved one: `'A'`, 25 zeros, the digit one. */
  function AboveReserved(digits: seq<char>): (r: seq<char>)
    requires ValidDigits(digits)
    ensures ValidInteger(r) && KeyDigitsIn(r, digits) && r != Sentinel(digits)
  {
    var r := ['A'] + Repeat(digits[0], 25) + [digits[1]];
    assert r[1..] == Repeat(digits[0], 25) + [digits[1]];
    AllInConcat(Repeat(digits[0], 25), [digits[1]], digits);
    assert r[26] != Sentinel(digits)[26];
    r
  }

  /** decrementInteger yields the reserved integer from exactly one integer. */
  lemma ReservedPredecessor(x: seq<char>, digits: seq<char>)
    requires ValidDigits(digits) && ValidInteger(x) && KeyDigitsIn(x, digits)
    ensures DecrementInteger(x, digits) == Ok(Some(Sentinel(digits))) <==> x == AboveReserved(digits)
  {
    var u := AboveReserved(digits);
    var ds := Repeat(digits[0], 25);
    assert u[1..] == ds + [digits[1]];
    ValueOfZeros(digits, 25);
    ValueSnoc(ds, digits[1], digits);
    IndexOfDigit(digits, 1);
    assert Rank(u, digits) == 1;
    SentinelRank(digits);
    DecrementRank(x, digits);
    RankOrder(x, u, digits);
    if DecrementInteger(x, digits) == Ok(Some(Sentinel(digits))) {
      assert Rank(x, digits) == 1;
    }
    if x == u {
      var res := DecrementInteger(x, digits).value.value;
      RankOrder(res, Sentinel(digits), digits);
    }
  }

  /** The bare integer two above the reserved one: `'A'`, 25 zeros, then
      the digit two. */
  function TwoAboveReserved(digits: seq<char>): (r: seq<char>)
    requires ValidDigits(digits) && |digits| >= 3
    ensures ValidInteger(r) && KeyDigitsIn(r, digits) && r != Sentinel(digits)
  {
    var r := ['A'] + Repeat(digits[0], 25) + [digits[2]];
    assert r[1..] == Repeat(digits[0], 25) + [digits[2]];
    AllInConcat(Repeat(digits[0], 25), [digits[2]], digits);
    assert r[26] != Sentinel(digits)[26];
    r
  }

  /** decrementInteger takes the integer two above the reserved one to the
      integer just above it. */
  lemma TwoAboveReservedPredecessor(digits: seq<char>)
    requires ValidDigits(digits) && |digits| >= 3
    ensures DecrementInteger(TwoAboveReserved(digits), digits) == Ok(Some(AboveReserved(digits)))
  {
    var t, u := TwoAboveReserved(digits), AboveReserved(digits);
    var ds := Repeat(digits[0], 25);
    assert u[1..] == ds + [digits[1]];
    assert t[1..] == ds + [digits[2]];
    ValueOfZeros(digits, 25);
    ValueSnoc(ds, digits[1], digits);
    ValueSnoc(ds, digits[2], digits);
    IndexOfDigit(digits, 1);
    IndexOfDigit(digits, 2);
    assert Rank(u, digits) == 1;
    assert Rank(t, digits) == 2;
    DecrementRank(t, digits);
    var p := DecrementInteger(t, digits).value.value;
    RankOrder(p, u, digits);
  }

  /** As written, the integer just above the reserved one has the reserved
      key as its lower neighbour, and the source returns it: a key that its
      own validation rejects, so that it cannot be used as a bound again. */
  lemma AsWrittenReturnsReservedKey(digits: seq<char>)
    requires ValidDigits(digits)
    ensures var b := AboveReserved(digits);
      && IsOrderKey(b, digits)
      && GenerateKeyBetweenAsWritten(None, Some(b), digits) == Ok(Sentinel(digits))
      && ValidateOrderKey(Sentinel(digits), digits) == Fail(ReservedKey)
  {
    var b := AboveReserved(digits);
    IntegerKey(b, digits);
    LexLessIrreflexive(b);
    ReservedPredecessor(b, digits);
  }

  /** Away from the two defects, generateKeyBetween as written and as
      intended agree on every input: the defects are the bare integer just
      above the reserved one as upper bound with no lower bound, and two
      keys sharing an integer part whose fractions are in the zero-string
      case of midpoint. */
  lemma AsWrittenAgrees(a: Option<seq<char>>, b: Option<seq<char>>, digits: seq<char>)
    requires ValidDigits(digits) && BoundDigitsIn(a, digits) && BoundDigitsIn(b, digits)
    requires !(a.None? && b == Some(AboveReserved(digits)))
    requires !(&& a.Some? && b.Some? && WellFormedKey(a.value, digits) && WellFormedKey(b.value, digits)
               && IntPart(a.value) == IntPart(b.value)
               && ZeroStringCase(FracPart(a.value), Some(FracPart(b.value))))
    ensures GenerateKeyBetweenAsWritten(a, b, digits) == GenerateKeyBetween(a, b, digits)
  {
    if Admissible(a, b, digits) {
      if a.None? && b.Some? {
        BelowAgrees(b.value, digits);
      } else if a.Some? && b.None? {
        KeyParts(a.value, digits);
        ReadingsAgree(FracPart(a.value), None, digits);
      } else if a.Some? && b.Some? {
        InsideAgrees(a.value, b.value, digits);
      }
    }
  }

  /** With no lower bound, the readings differ only above the reserved integer. */
  lemma BelowAgrees(b: seq<char>, digits: seq<char>)
    requires ValidDigits(digits) && IsOrderKey(b, digits) && b != AboveReserved(digits)
    ensures KeyBelow(b, digits, AsWritten) == KeyBelow(b, digits, Intended)
  {
    KeyParts(b, digits);
    var ib, fb := IntPart(b), FracPart(b);
    if ib == Sentinel(digits) {
      ReadingsAgree([], Some(fb), digits);
    } else if !LexLess(ib, b) {
      assert fb == [] by {
        LexLessExtension(ib, fb);
      }
      assert b == ib;
      ReservedPredecessor(ib, digits);
    }
  }

  /** With two bounds, the readings differ only in the zero-string case. */
  lemma InsideAgrees(a: seq<char>, b: seq<char>, digits: seq<char>)
    requires ValidDigits(digits) && IsOrderKey(a, digits) && IsOrderKey(b, digits) && LexLess(a, b)
    requires !(IntPart(a) == IntPart(b) && ZeroStringCase(FracPart(a), Some(FracPart(b))))
    ensures KeyInside(a, b, digits, AsWritten) == KeyInside(a, b, digits, Intended)
  {
    KeyParts(a, digits);
    KeyParts(b, digits);
    var ia, fa, ib, fb := IntPart(a), FracPart(a), IntPart(b), FracPart(b);
    if ia == ib {
      LexLessCommonPrefix(ia, fa, fb);
      ReadingsAgree(fa, Some(fb), digits);
    }
    ReadingsAgree(fa, None, digits);
  }

  /** The bounds of the zero-string counterexample are valid, ordered keys
      sharing the integer part `a0`. */
  lemma ZeroStringKeys(digits: seq<char>, d: char)
    requires ValidDigits(digits) && '0' in digits && digits[0] != '0' && d in digits && d != digits[0]
    ensures var a, b := "a00", "a00" + [d];
      && IsOrderKey(a, digits) && IsOrderKey(b, digits) && LexLess(a, b)
      && IntPart(a) == "a0" && FracPart(a) == "0"
      && IntPart(b) == "a0" && FracPart(b) == ['0', d]
  {
    var a, b := "a00", "a00" + [d];
    assert a[1..] == "00" && b[1..] == ['0', '0', d];
    LexLessExtension(a, [d]);
  }

  /** As written, when the zero digit is not `'0'` (as in a base-95
      alphabet that starts at the space character), the key between `a00`
      and `a00d` is `a00` itself: `midpoint("0", "0d")` takes `"0"` for the
      empty string.  The intended key lies strictly between them. */
  lemma AsWrittenReturnsLowerBound(digits: seq<char>, d: char)
    requires ValidDigits(digits) && '0' in digits && digits[0] != '0' && d in digits && d != digits[0]
    requires '1' <= d <= '9'
    ensures var a, b := "a00", "a00" + [d];
      && IsOrderKey(a, digits) && IsOrderKey(b, digits) && LexLess(a, b)
      && GenerateKeyBetweenAsWritten(Some(a), Some(b), digits) == Ok(a)
  {
    var a, b := "a00", "a00" + [d];
    ZeroStringKeys(digits, d);
    Fraction.AsWrittenReturnsLowerBound(digits, d);
    assert KeyInside(a, b, digits, AsWritten) == Ok("a0" + "0");
  }
}

=== FILE: lex.dfy ===
/** Byte-wise string order, and the PHP string primitives the source uses.

    Order keys are compared with PHP's `<`, `>=` and `===` on strings that
    start with a letter, which is a plain comparison of character codes,
    position by position, with a proper prefix sorting first.  Dafny's own
    `<` on sequences means "proper prefix", so the order is defined here. */
module Lex {
  import opened Wrappers

  /** `a` sorts strictly before `b` under character-code comparison. */
  predicate LexLess(a: seq<char>, b: seq<char>)
    decreases |a|
  {
    if |b| == 0 then false
    else if |a| == 0 then true
    else a[0] < b[0] || (a[0] == b[0] && LexLess(a[1..], b[1..]))
  }

  /** `p` is a (not necessarily proper) prefix of `s`. */
  predicate IsPrefix(p: seq<char>, s: seq<char>) {
    |p| <= |s| && s[..|p|] == p
  }

  /** PHP's `substr($s, $n)` for `$n >= 0` (PHP 8: empty past the end). */
  function Substr(s: seq<char>, n: nat): (r: seq<char>)
    ensures n <= |s| ==> r == s[n..]
    ensures n > |s| ==> r == []
  {
    if n <= |s| then s[n..] else []
  }

  /** PHP's `$s[$n]`: reading past the end yields `""`, modelled as `None`. */
  function CharAt(s: seq<char>, n: nat): (r: Option<char>)
    ensures n < |s| <==> r.Some?
    ensures n < |s| ==> r.value == s[n]
  {
    if n < |s| then Some(s[n]) else None
  }

  /** PHP truthiness of a string: `""` and `"0"` are false. */
  predicate PhpTruthy(s: seq<char>) {
    s != [] && s != "0"
  }

  lemma {:induction false} LexLessIrreflexive(a: seq<char>)
    ensures !LexLess(a, a)
    decreases |a|
  {
    if |a| > 0 {
      LexLessIrreflexive(a[1..]);
    }
  }

  lemma {:induction false} LexLessAsymmetric(a: seq<char>, b: seq<char>)
    requires LexLess(a, b)
    ensures !LexLess(b, a)
    decreases |a|
  {
    if |a| > 0 && a[0] == b[0] {
      LexLessAsymmetric(a[1..], b[1..]);
    }
  }

  lemma {:induction false} LexLessTransitive(a: seq<char>, b: seq<char>, c: seq<char>)
    requires LexLess(a, b) && LexLess(b, c)
    ensures LexLess(a, c)
    decreases |a|
  {
    if |a| > 0 && a[0] == b[0] && b[0] == c[0] {
      LexLessTransitive(a[1..], b[1..], c[1..]);
    }
  }

  /** Any two distinct strings are ordered one way or the other. */
  lemma {:induction false} LexLessTotal(a: seq<char>, b: seq<char>)
    ensures a == b || LexLess(a, b) || LexLess(b, a)
    decreases |a|
  {
    if |a| > 0 && |b| > 0 && a[0] == b[0] {
      LexLessTotal(a[1..], b[1..]);
      if a[1..] == b[1..] {
        assert a == [a[0]] + a[1..] && b == [b[0]] + b[1..];
      }
    }
  }

  /** A shared prefix does not change the order. */
  lemma {:induction false} LexLessCommonPrefix(p: seq<char>, x: seq<char>, y: seq<char>)
    ensures LexLess(p + x, p + y) <==> LexLess(x, y)
    decreases |p|
  {
    if |p| > 0 {
      assert (p + x)[1..] == p[1..] + x;
      assert (p + y)[1..] == p[1..] + y;
      LexLessCommonPrefix(p[1..], x, y);
    } else {
      assert p + x == x && p + y == y;
    }
  }

  /** How `LexLess` decides on a non-empty left side. */
  lemma LexLessHead(a: seq<char>, b: seq<char>)
    requires LexLess(a, b) && a != []
    ensures b != [] && a[0] <= b[0]
    ensures a[0] == b[0] ==> LexLess(a[1..], b[1..])
  {
  }

  /** Nothing that starts with `p` sorts before `p`. */
  lemma NotLessThanPrefix(p: seq<char>, x: seq<char>)
    ensures !LexLess(p + x, p)
  {
    LexLessExtension(p, x);
    if x == [] {
      assert p + x == p;
      LexLessIrreflexive(p);
    } else {
      LexLessAsymmetric(p, p + x);
    }
  }

  /** A string sorts before each of its proper extensions. */
  lemma {:induction false} LexLessExtension(p: seq<char>, x: seq<char>)
    ensures LexLess(p, p + x) <==> x != []
    decreases |p|
  {
    if |p| > 0 {
      assert (p + x)[1..] == p[1..] + x;
      LexLessExtension(p[1..], x);
    } else {
      assert p + x == x;
    }
  }

  /** When `x` sorts before `y` at a position where both have a character,
      whatever follows either of them cannot change the order. */
  lemma {:induction false} LexLessNotPrefix(x: seq<char>, y: seq<char>, s: seq<char>, t: seq<char>)
    requires LexLess(x, y) && !IsPrefix(x, y)
    ensures LexLess(x + s, y + t)
    decreases |x|
  {
    assert |x| > 0;
    if x[0] == y[0] {
      assert (x + s)[1..] == x[1..] + s;
      assert (y + t)[1..] == y[1..] + t;
      LexLessNotPrefix(x[1..], y[1..], s, t);
    }
  }

  /** Appending one character to each of two equally long strings. */
  lemma {:induction false} LexLessSnoc(x: seq<char>, y: seq<char>, c: char, d: char)
    requires |x| == |y|
    ensures LexLess(x + [c], y + [d]) <==> LexLess(x, y) || (x == y && c < d)
    decreases |x|
  {
    if |x| > 0 {
      assert (x + [c])[1..] == x[1..] + [c];
      assert (y + [d])[1..] == y[1..] + [d];
      LexLessSnoc(x[1..], y[1..], c, d);
      if x[0] == y[0] && x[1..] == y[1..] {
        assert x == [x[0]] + x[1..] && y == [y[0]] + y[1..];
      }
    }
  }
}

=== FILE: validation.dfy ===
/** Order-key validation (src/FractionalIndexing.php:239-251).

    A key is an integer part followed by a fractional part that does not end
    in the zero digit; the smallest integer part on its own is reserved, so
    that there is always room below every key. */
module Validation {
  import opened Wrappers
  import opened Lex
  import opened Alphabet
  import opened IntegerCodec

  /** What validateOrderKey accepts, stated on the key's characters. */
  predicate WellFormedKey(key: seq<char>, digits: seq<char>)
    requires |digits| > 0
  {
    && |key| >= 1
    && IsHead(key[0])
    && HeadLength(key[0]) <= |key|
    && key != Sentinel(digits)
    && !EndsInZero(key[HeadLength(key[0])..], digits)
  }

  /** A key the generator may be given: well formed, and every character
      after the head is a digit of the alphabet. */
  predicate IsOrderKey(key: seq<char>, digits: seq<char>)
    requires |digits| > 0
  {
    WellFormedKey(key, digits) && KeyDigitsIn(key, digits)
  }

  /** The integer part of a well-formed key. */
  function IntPart(key: seq<char>): (r: seq<char>)
    requires |key| >= 1 && IsHead(key[0]) && HeadLength(key[0]) <= |key|
    ensures ValidInteger(r) && IsPrefix(r, key)
  {
    key[..HeadLength(key[0])]
  }

  /** The fractional part of a well-formed key. */
  function FracPart(key: seq<char>): (r: seq<char>)
    requires |key| >= 1 && IsHead(key[0]) && HeadLength(key[0]) <= |key|
    ensures IntPart(key) + r == key
  {
    key[HeadLength(key[0])..]
  }

  /** validateOrderKey: fails on the bare reserved integer, on a key whose
      integer part cannot be taken, and on a fractional part ending in the
      zero digit, in that order. */
  function ValidateOrderKey(key: seq<char>, digits: seq<char>): (r: Outcome)
    requires |digits| > 0
    ensures r.Pass? <==> WellFormedKey(key, digits)
    ensures key == Sentinel(digits) ==> r == Fail(ReservedKey)
    ensures key != Sentinel(digits) && (|key| == 0 || !IsHead(key[0])) ==> r == Fail(InvalidHead)
    ensures key != Sentinel(digits) && |key| >= 1 && IsHead(key[0]) && |key| < HeadLength(key[0]) ==>
              r == Fail(TruncatedKey)
    ensures && key != Sentinel(digits) && |key| >= 1 && IsHead(key[0]) && HeadLength(key[0]) <= |key|
            && EndsInZero(FracPart(key), digits)
            ==> r == Fail(TrailingZero)
  {
    if key == Sentinel(digits) then Fail(ReservedKey)
    else
      match IntegerPart(key)
      case Err(e) => Fail(e)
      case Ok(i) =>
        var f := key[|i|..];
        if EndsInZero(f, digits) then Fail(TrailingZero) else Pass
  }

  /** The key grammar: a key is well formed exactly when it splits into a
      well-formed integer part and a fractional part that does not end in
      zero, other than the reserved integer with nothing after it. */
  lemma KeyGrammar(key: seq<char>, digits: seq<char>)
    requires |digits| > 0
    ensures WellFormedKey(key, digits) <==>
      exists i, f :: && key == i + f
                     && ValidInteger(i)
                     && !EndsInZero(f, digits)
                     && !(i == Sentinel(digits) && f == [])
  {
    if WellFormedKey(key, digits) {
      var i, f := IntPart(key), FracPart(key);
      assert key == i + f;
    }
    if exists i, f :: && key == i + f && ValidInteger(i) && !EndsInZero(f, digits)
                      && !(i == Sentinel(digits) && f == []) {
      var i, f :| && key == i + f && ValidInteger(i) && !EndsInZero(f, digits)
                  && !(i == Sentinel(digits) && f == []);
      assert key[0] == i[0];
      assert key[..|i|] == i && key[|i|..] == f;
    }
  }

  /** The reserved integer is rejected only on its own: followed by any
      fractional part that does not end in zero it is a valid key. */
  lemma SentinelWithFraction(f: seq<char>, digits: seq<char>)
    requires |digits| > 0
    ensures ValidateOrderKey(Sentinel(digits) + f, digits) == Pass <==> f != [] && !EndsInZero(f, digits)
  {
    var k := Sentinel(digits) + f;
    assert k[..27] == Sentinel(digits) && k[27..] == f;
    if f == [] {
      assert k == Sentinel(digits);
    }
  }

  /** The parts of a valid key: both draw on the alphabet, the fraction does
      not end in zero, and the reserved integer always has a fraction. */
  lemma KeyParts(key: seq<char>, digits: seq<char>)
    requires |digits| > 0 && IsOrderKey(key, digits)
    ensures KeyDigitsIn(IntPart(key), digits) && AllIn(FracPart(key), digits)
    ensures !EndsInZero(FracPart(key), digits)
    ensures IntPart(key) == Sentinel(digits) ==> FracPart(key) != []
  {
    var h := HeadLength(key[0]);
    assert IntPart(key)[1..] == key[1..h];
    AllInSlice(key[1..], digits, 0, h - 1);
    AllInSlice(key[1..], digits, h - 1, |key| - 1);
    assert FracPart(key) == key[1..][h - 1..];
  }

  /** An integer part on its own is a valid key, unless it is the reserved one. */
  lemma IntegerKey(i: seq<char>, digits: seq<char>)
    requires |digits| > 0 && ValidInteger(i) && KeyDigitsIn(i, digits) && i != Sentinel(digits)
    ensures IsOrderKey(i, digits) && IntPart(i) == i && FracPart(i) == []
  {
  }

  /** An integer part followed by a non-empty fraction that does not end in
      zero is a valid key, with those as its parts. */
  lemma FractionKey(i: seq<char>, f: seq<char>, digits: seq<char>)
    requires |digits| > 0 && ValidInteger(i) && KeyDigitsIn(i, digits)
    requires AllIn(f, digits) && f != [] && !EndsInZero(f, digits)
    ensures IsOrderKey(i + f, digits) && IntPart(i + f) == i && FracPart(i + f) == f
  {
    var k := i + f;
    assert k[0] == i[0];
    assert k[..|i|] == i && k[|i|..] == f;
    assert k[1..] == i[1..] + f;
    AllInConcat(i[1..], f, digits);
  }

  /** Two ordered keys have ordered integer parts. */
  lemma IntPartOrder(a: seq<char>, b: seq<char>, digits: seq<char>)
    requires |digits| > 0 && IsOrderKey(a, digits) && IsOrderKey(b, digits) && LexLess(a, b)
    ensures IntPart(a) == IntPart(b) || LexLess(IntPart(a), IntPart(b))
  {
    var ia, ib := IntPart(a), IntPart(b);
    LexLessTotal(ia, ib);
    if LexLess(ib, ia) {
      IntegerOrderExtends(ib, ia, FracPart(b), FracPart(a));
      LexLessAsymmetric(a, b);
    }
  }
}

=== FILE: vectors.dfy ===
/** Concrete cases from the source's comments and its test file
    (tests/FractionalIndexingTests.php), stated against the model. */
module Vectors {
  import opened Wrappers
  import opened Lex
  import opened Alphabet
  import opened IntegerCodec
  import opened Validation
  import opened Fraction
  import opened KeyGenerator
  import opened KeyBatches

  /** The test file's BASE_10_DIGITS. */
  const Base10Digits: seq<char> := Span('0', 10)

  lemma Base10DigitsValid()
    ensures ValidDigits(Base10Digits) && Base10Digits == "0123456789"
  {
  }

  /** midpoint('49', '5') is '495' (src/FractionalIndexing.php:198-200). */
  lemma MidpointExample()
    ensures ValidDigits(Base10Digits) && AllIn("49", Base10Digits) && AllIn("5", Base10Digits)
    ensures Midpoint("49", Some("5"), Base10Digits) == Ok("495")
  {
    Base10DigitsValid();
    var d := Base10Digits;
    IndexOfDigit(d, 4);
    IndexOfDigit(d, 5);
    IndexOfDigit(d, 9);
    assert MidpointWith("", None, d, Intended) == Ok("5");
    assert Substr("9", 1) == "";
    assert DigitA("9", d) == 9;
    assert StripLength("9", None, d, Intended) == 0;
    assert !EndsInZero("9", d);
    assert DigitB(None, d) == 10;
    assert [d[9]] + "5" == "95";
    assert MidpointWith("9", None, d, Intended) == Ok("95");
    assert Substr("49", 1) == "9";
    assert DigitA("49", d) == 4;
    assert StripLength("49", Some("5"), d, Intended) == 0;
    assert !EndsInZero("49", d) && !EndsInZero("5", d);
    assert LexLess("49", "5");
    assert DigitB(Some("5"), d) == 5;
    assert [d[4]] + "95" == "495";
    assert MidpointWith("49", Some("5"), d, Intended) == Ok("495");
  }

  /** The test file's BASE_95_DIGITS: the printable ASCII characters from
      the space to `~`, so that the zero digit is the space. */
  const Base95Digits: seq<char> := Span(' ', 95)

  lemma Base95DigitsValid()
    ensures ValidDigits(Base95Digits) && |Base95Digits| == 95
    ensures Base95Digits[0] == ' ' && Base95Digits[16] == '0' && Base95Digits[21] == '5'
  {
  }

  /** In base 10, the integer after `a9` is `b00` (tests/FractionalIndexingTests.php:86). */
  lemma IncrementExample()
    ensures ValidDigits(Base10Digits) && KeyDigitsIn("a9", Base10Digits)
    ensures IncrementInteger("a9", Base10Digits) == Ok(Some("b00"))
  {
    Base10DigitsValid();
    var d := Base10Digits;
    assert d[0] == '0' && MaxDigit(d) == '9';
    assert ValidateInteger("a9") == Pass;
    assert "a9"[1..] == Repeat(MaxDigit(d), 1);
    assert IncrementDigits("a9"[1..], d) == (Repeat(d[0], 1), true);
    assert ('a' as int + 1) as char == 'b';
    assert IncrementHead('a', Repeat(d[0], 1), d) == Some(['b'] + (Repeat(d[0], 1) + [d[0]]));
    assert IncrementInteger("a9", d) == Ok(IncrementHead('a', Repeat(d[0], 1), d));
    assert ['b'] + (Repeat(d[0], 1) + [d[0]]) == "b00";
  }

  /** In base 62, the integer before `a0` is `Zz` (tests/FractionalIndexingTests.php:38). */
  lemma DecrementExample()
    ensures ValidDigits(Base62Digits) && KeyDigitsIn("a0", Base62Digits)
    ensures DecrementInteger("a0", Base62Digits) == Ok(Some("Zz"))
  {
    Base62DigitsValid();
    assert MaxDigit(Base62Digits) == 'z';
    BandCrossing(Base62Digits);
  }

  /** With the test file's base-95 alphabet, generateKeyBetween as written
      returns its lower bound `a00` for the bounds `a00` and `a005`. */
  lemma ZeroStringBase95()
    ensures ValidDigits(Base95Digits)
    ensures IsOrderKey("a00", Base95Digits) && IsOrderKey("a005", Base95Digits) && LexLess("a00", "a005")
    ensures GenerateKeyBetweenAsWritten(Some("a00"), Some("a005"), Base95Digits) == Ok("a00")
  {
    Base95DigitsValid();
    assert "a00" + ['5'] == "a005";
    KeyGenerator.AsWrittenReturnsLowerBound(Base95Digits, '5');
  }

  /** After the one-digit integer `'a'` then digit `i` comes `'a'` then
      digit `i + 1`. */
  lemma IncrementDigit(i: nat, digits: seq<char>)
    requires ValidDigits(digits) && i + 1 < |digits|
    ensures var x, y := ['a', digits[i]], ['a', digits[i + 1]];
      && IsOrderKey(x, digits) && IsOrderKey(y, digits)
      && IncrementInteger(x, digits) == Ok(Some(y))
  {
    var x, y := ['a', digits[i]], ['a', digits[i + 1]];
    OneDigitRanks(i, digits);
    IncrementRank(x, digits);
    RankOrder(IncrementInteger(x, digits).value.value, y, digits);
    IntegerKey(x, digits);
    IntegerKey(y, digits);
  }

  /** Consecutive one-digit integers under `'a'` have consecutive ranks. */
  lemma OneDigitRanks(i: nat, digits: seq<char>)
    requires ValidDigits(digits) && i + 1 < |digits|
    ensures var x, y := ['a', digits[i]], ['a', digits[i + 1]];
      && ValidInteger(x) && KeyDigitsIn(x, digits) && ValidInteger(y) && KeyDigitsIn(y, digits)
      && Rank(y, digits) == Rank(x, digits) + 1
      && Rank(y, digits) < IntegerCount(digits)
  {
    var x, y := ['a', digits[i]], ['a', digits[i + 1]];
    assert x[1..] == [] + [digits[i]] && y[1..] == [] + [digits[i + 1]];
    ValueSnoc([], digits[i], digits);
    ValueSnoc([], digits[i + 1], digits);
    IndexOfDigit(digits, i);
    IndexOfDigit(digits, i + 1);
    IntegerKey(y, digits);
    RankBelowCount(y, digits);
  }

  /** The key after such an integer is the next one. */
  lemma NextInteger(i: nat, digits: seq<char>)
    requires ValidDigits(digits) && i + 1 < |digits|
    ensures var x, y := ['a', digits[i]], ['a', digits[i + 1]];
      && IsOrderKey(x, digits) && IsOrderKey(y, digits)
      && GenerateKeyBetween(Some(x), None, digits) == Ok(y)
  {
    var x, y := ['a', digits[i]], ['a', digits[i + 1]];
    IncrementDigit(i, digits);
    assert KeyAbove(x, digits, Intended) == Ok(y);
  }

  /** In base 62, midpoint of nothing and no bound is the middle digit. */
  lemma MidpointOfNothing()
    ensures ValidDigits(Base62Digits)
    ensures MidpointWith("", None, Base62Digits, Intended) == Ok("V")
  {
    Base62DigitsValid();
    var d := Base62Digits;
    assert d[31] == 'V';
    assert StripLength("", None, d, Intended) == 0;
  }

  /** In base 62, midpoint of nothing and `1` is the zero digit followed by
      the middle digit. */
  lemma MidpointBelowOne()
    ensures ValidDigits(Base62Digits) && AllIn("1", Base62Digits)
    ensures MidpointWith("", Some("1"), Base62Digits, Intended) == Ok("0V")
  {
    MidpointOfNothing();
    var d := Base62Digits;
    assert d[0] == '0' && d[1] == '1';
    IndexOfDigit(d, 1);
    assert LexLess("", "1");
    assert StripLength("", Some("1"), d, Intended) == 0;
    assert DigitB(Some("1"), d) == 1;
    assert Substr("", 1) == "";
    assert !EndsInZero("", d) && !EndsInZero("1", d);
    assert MidpointFirst("", Some("1"), d, Intended) == Ok([d[0]] + "V");
    assert [d[0]] + "V" == "0V";
  }

  /** With equal integer parts and empty fractions, the key between
      `a0` and `a1` is `a0` followed by the middle digit. */
  lemma InsideStep()
    ensures ValidDigits(Base62Digits) && IsOrderKey("a0", Base62Digits) && IsOrderKey("a1", Base62Digits)
    ensures KeyInside("a0", "a1", Base62Digits, Intended) == Ok("a0V")
  {
    Base62DigitsValid();
    var d := Base62Digits;
    assert d[0] == '0' && d[1] == '1' && d[31] == 'V';
    IncrementDigit(0, d);
    assert ['a', d[0]] == "a0" && ['a', d[1]] == "a1";
    IntegerKey("a0", d);
    LexLessIrreflexive("a1");
    MidpointOfNothing();
    assert "a0" + "V" == "a0V";
  }

  /** In base 62, the key between `a0` and `a1` is `a0V`
      (tests/FractionalIndexingTests.php:42), as written and as intended. */
  lemma InsideExample()
    ensures ValidDigits(Base62Digits) && IsOrderKey("a0", Base62Digits) && IsOrderKey("a1", Base62Digits)
    ensures GenerateKeyBetween(Some("a0"), Some("a1"), Base62Digits) == Ok("a0V")
    ensures GenerateKeyBetweenAsWritten(Some("a0"), Some("a1"), Base62Digits) == Ok("a0V")
  {
    var d := Base62Digits;
    InsideStep();
    assert LexLess("a0", "a1");
    assert GenerateKeyBetweenWith(Some("a0"), Some("a1"), d, Intended) == KeyInside("a0", "a1", d, Intended);
    AsWrittenAgrees(Some("a0"), Some("a1"), d);
  }

  /** In base 62, with no lower bound and the reserved integer followed by
      `1` as upper bound, the key is the reserved integer followed by `0V`,
      that is `'A'`, 27 zeros and `V` (tests/FractionalIndexingTests.php:61). */
  lemma ReservedBoundExample()
    ensures ValidDigits(Base62Digits) && IsOrderKey(Sentinel(Base62Digits) + "1", Base62Digits)
    ensures GenerateKeyBetween(None, Some(Sentinel(Base62Digits) + "1"), Base62Digits)
            == Ok(Sentinel(Base62Digits) + "0V")
    ensures GenerateKeyBetweenAsWritten(None, Some(Sentinel(Base62Digits) + "1"), Base62Digits)
            == Ok(Sentinel(Base62Digits) + "0V")
  {
    Base62DigitsValid();
    var d := Base62Digits;
    var s := Sentinel(d);
    assert d[0] == '0' && d[1] == '1' && d[31] == 'V';
    SentinelRank(d);
    IndexOfDigit(d, 1);
    FractionKey(s, "1", d);
    var b := s + "1";
    assert |b| == 28 && b != AboveReserved(d);
    MidpointBelowOne();
    assert KeyBelow(b, d, Intended) == Ok(s + "0V");
    AsWrittenAgrees(None, Some(b), d);
  }

  /** One step of the forward loop from `'a'` with digit `i`. */
  lemma CountUpStep(i: nat, k: nat, rest: seq<seq<char>>, digits: seq<char>)
    requires ValidDigits(digits) && i + 1 < |digits| && k > 0
    requires KeyDigitsIn(['a', digits[i + 1]], digits)
    requires ChainUp(['a', digits[i + 1]], k - 1, digits, Intended) == Ok(rest)
    ensures KeyDigitsIn(['a', digits[i]], digits)
    ensures ChainUp(['a', digits[i]], k, digits, Intended) == Ok([['a', digits[i + 1]]] + rest)
  {
    NextInteger(i, digits);
    ChainUpCons(['a', digits[i]], k, ['a', digits[i + 1]], rest, digits, Intended);
  }

  /** The one-digit integers under `'a'` with digits `j` to `j + k - 1`. */
  function Ladder(j: nat, k: nat, digits: seq<char>): (r: seq<seq<char>>)
    requires j + k <= |digits|
    ensures |r| == k && forall t :: 0 <= t < k ==> r[t] == ['a', digits[j + t]]
    decreases k
  {
    if k == 0 then [] else [['a', digits[j]]] + Ladder(j + 1, k - 1, digits)
  }

  /** The forward loop from a one-digit integer under `'a'` counts up
      through the next `k` digits. */
  lemma {:induction false} CountUp(i: nat, k: nat, digits: seq<char>)
    requires ValidDigits(digits) && i + k < |digits|
    ensures KeyDigitsIn(['a', digits[i]], digits)
    ensures ChainUp(['a', digits[i]], k, digits, Intended) == Ok(Ladder(i + 1, k, digits))
    decreases k
  {
    IntegerKey(['a', digits[i]], digits);
    if k > 0 {
      CountUp(i + 1, k - 1, digits);
      CountUpNext(i, k, digits);
    }
  }

  /** The step of CountUp, on its own so that its proof stays small. */
  lemma CountUpNext(i: nat, k: nat, digits: seq<char>)
    requires ValidDigits(digits) && i + k < |digits| && k > 0
    requires KeyDigitsIn(['a', digits[i + 1]], digits)
    requires ChainUp(['a', digits[i + 1]], k - 1, digits, Intended) == Ok(Ladder(i + 2, k - 1, digits))
    ensures KeyDigitsIn(['a', digits[i]], digits)
    ensures ChainUp(['a', digits[i]], k, digits, Intended) == Ok(Ladder(i + 1, k, digits))
  {
    var rest := Ladder(i + 2, k - 1, digits);
    assert Ladder(i + 1, k, digits) == [['a', digits[i + 1]]] + rest;
    CountUpStep(i, k, rest, digits);
  }

  /** In base 10, the forward loop from `a0` yields `a1` to `a4`. */
  lemma CountUpFromZero()
    ensures ValidDigits(Base10Digits) && KeyDigitsIn("a0", Base10Digits)
    ensures ChainUp("a0", 4, Base10Digits, Intended) == Ok(["a1", "a2", "a3", "a4"])
  {
    Base10DigitsValid();
    var d := Base10Digits;
    assert ['a', d[0]] == "a0";
    assert Ladder(1, 4, d) == ["a1", "a2", "a3", "a4"];
    CountUp(0, 4, d);
  }

  /** In base 10, five keys with no bounds are `a0` to `a4`
      (tests/FractionalIndexingTests.php:85), as written and as intended. */
  lemma BatchExample()
    ensures ValidDigits(Base10Digits)
    ensures GenerateNKeysBetween(None, None, 5, Base10Digits) == Ok(["a0", "a1", "a2", "a3", "a4"])
    ensures GenerateNKeysBetweenAsWritten(None, None, 5, Base10Digits) == Ok(["a0", "a1", "a2", "a3", "a4"])
  {
    var d := Base10Digits;
    assert ["a0"] + ["a1", "a2", "a3", "a4"] == ["a0", "a1", "a2", "a3", "a4"];
    CountUpFromZero();
    assert d[0] == '0' && ['a', d[0]] == "a0";
    assert GenerateKeyBetweenWith(None, None, d, Intended) == Ok("a0");
    KeysAboveCons(None, 5, "a0", ["a1", "a2", "a3", "a4"], d, Intended);
    assert GenerateNKeysBetweenWith(None, None, 5, d, Intended) == KeysAbove(None, 5, d, Intended);
    NoUpperBoundAgrees(None, 5, d);
  }
}

=== FILE: wrappers.dfy ===
/** Failure-compatible datatypes shared by the order-key model.

    The PHP source reports every failure by throwing an exception whose
    message is free text; here a failure is one of the error kinds below. */
module Wrappers {

  /** The kinds of failure the key generator can report. */
  datatype ErrorKind =
    | InvalidHead       // the first character is not a letter A..Z or a..z
    | TruncatedKey      // the key is shorter than its head says its integer part is
    | MalformedInteger  // an integer part whose length disagrees with its head
    | ReservedKey       // the bare smallest integer 'A' + zero x 26
    | TrailingZero      // a fractional part that ends in the zero digit
    | OrderViolation    // a lower bound that is not below the upper bound
    | Exhausted         // no larger or smaller integer is left

  /** A value that may be absent; stands for PHP's `null`. */
  datatype Option<+T> = None | Some(value: T)

  /** Either a computed value or the kind of failure that was thrown. */
  datatype Result<+T> = Ok(value: T) | Err(error: ErrorKind) {

    predicate IsFailure() {
      Err?
    }

    function PropagateFailure<U>(): Result<U>
      requires Err?
    {
      Err(error)
    }

    function Extract(): T
      requires Ok?
    {
      value
    }
  }

  /** The outcome of a check that returns nothing when it passes. */
  datatype Outcome = Pass | Fail(error: ErrorKind)
}
